=== FILE: README.md ===
# LAN discovery core, modelled in Dafny

This project models the pure core of a small home-network discovery service.
One discovery cycle goes like this:

- It picks the machine's own private IPv4 interface (`getInterfaceInfo` and `isIpInRange` in `functions.js`).
- It loads the Wireshark vendor table, a tab-separated file of hardware-address prefixes and vendor names (`loadOui`).
- It looks up the vendor of each hardware address (`macToVendor`).
- It merges the machine itself with the hosts an `nmap` ping sweep found, then sorts the table by vendor (`mapHosts`).
- It parses the parsable output of `avahi-browse` into service records (`serviceDiscovery`).
- It gives every host a device type by running three ordered tables of regular-expression rules over the services advertised at its address.

The model follows the JavaScript closely:

- `undefined` and `null` become `Option.None`.
- `split`, `trim` and `toUpperCase` are written out over `seq<char>`.
- `Number()` and its NaN comparisons are written out as well. `JsNumbers.ToNumber` trims its argument and reads a blank string as 0, a run of decimal digits as its value and anything else as NaN. `JsNumbers.ToNumberOpt` reads `undefined` as NaN. Array indexing past the end (`parts[2]` of a short line) is `Options.At`, which yields `undefined`.
- The relational `>` between strings and `null` is written out.
- A regular-expression `test` is a search for a pattern of literal characters and `.` wildcards. That is all the rule expressions use. Without the `u` flag, a `.` matches one UTF-16 code unit that is not a line terminator. The model's `.` therefore matches only characters of the Basic Multilingual Plane.

The process calls, the file and network I/O and the WebSocket broadcast are replaced by parameters or left out. The `Discovery.Discover` method takes the interface table, the vendor file's text, the parsed sweep and the browser's output, and produces the classified table.

Modules:

- `Options`: `Option`, `Result`, array indexing that yields `undefined` past the end, and the first-match search (`findIndex`) that every `find` of the script shares.
- `Strings`: `split`/`join`, `trim`, ASCII `toUpperCase`, `startsWith`, string `<`, and the first word of a string.
- `JsNumbers`: `Number()` on strings and the comparison operators with NaN.
- `IpRange`: `functions.js`.
- `Oui`: vendor-file parsing and lookup.
- `Hosts`: the merge and sort of `mapHosts`.
- `Services`: service-line parsing, rule matching and device types.
- `Discovery`: the cycle at the end of `backend.js`.

Where a plain reading of the system's intent differs from what the code does, the model follows the code:

- **No private interface.** `getInterfaceInfo` does not throw when no interface qualifies. Its `throw` is commented out, so it returns `undefined`. `mapHosts` then fails on `iface.address`. The model returns `None` and `Failure(NoPrivateInterface)`.
- **A later non-match resets the type.** A service that matches no rule resets a host's device type to "Unknown", because `... || "Unknown"` overwrites the running value. So the last service at an address decides the type, matching or not (`Services.LaterNonMatchResets`).
- **The sort is neither stable nor null-first.** Its comparator never returns 0. It also answers -1 both ways between `null` and an ordinary name, because `null > "Acme"` and `"Acme" > null` both compare NaN with 0. Two rows with the same vendor get -1 both ways too. With such a comparator JavaScript leaves the order unspecified. The model proves the result is a permutation of the merge. It also proves that the insertion sort standing in for the engine's sort orders the table by vendor when every vendor is present; that order is a property of the stand-in, not a promise of the program.
- **Vendor lookup takes the first match in file order, not the longest prefix.** A first match with no vendor gives `null` even when a later entry would give a name.

## Model

| member | source | states |
|---|---|---|
| Options.FindIndex | backend.js:59 | the search returns the position of the first element the test admits, and the length exactly when it admits none |
| Options.FindIndexAppend | backend.js:59 | searching a concatenation finds the match in the first part if there is one, and otherwise searches the second |
| Strings.Split | backend.js:46 | `split` always yields at least one piece and no piece contains the separator |
| Strings.JoinSplit | backend.js:46 | joining the pieces of `split` with the separator gives back the original string |
| Strings.SplitConcat | backend.js:46 | the pieces of `a + sep + b` are the pieces of `a` followed by the pieces of `b` |
| Strings.SplitNoSeparator | backend.js:49 | a string without the separator splits into itself alone |
| Strings.SplitJoin | functions.js:5 | `split` undoes `join` when no piece contains the separator |
| Strings.LeadingSpace | backend.js:49 | the count of leading characters is maximal: all of them are whitespace and the next one is not |
| Strings.TrailingSpace | backend.js:49 | the count of trailing characters is maximal: all of them are whitespace and the one before them is not |
| Strings.Trim | backend.js:49 | `trim` yields a contiguous middle of the string, with only whitespace after it, that neither starts nor ends with whitespace |
| Strings.TrimExcludes | backend.js:49 | trimming never introduces a character the input lacks |
| Strings.TrimUnchanged | backend.js:49 | a string with non-whitespace ends is its own trim |
| Strings.TrimPadded | backend.js:49 | trimming whitespace padding off a text with non-whitespace ends gives back exactly that text |
| Strings.ToUpperIdempotent | backend.js:58 | upper-casing twice is upper-casing once, and leaves no ASCII lower-case letter |
| Strings.StrLessIrreflexive | backend.js:81 | no string is less than itself under JavaScript's string `<` |
| Strings.StrLessTransitive | backend.js:81 | string `<` is transitive |
| Strings.StrLessTotal | backend.js:81 | of two different strings one is less than the other |
| Strings.StrLessAsymmetric | backend.js:81 | string `<` never holds both ways |
| Strings.FirstWord | backend.js:50 | `split(" ")[0]` is a space-free prefix followed by a space or by the end of the string |
| JsNumbers.Decimal | functions.js:38-40 | the decimal numeral of a natural number is a non-empty digit string denoting that number |
| JsNumbers.ToNumberDecimal | functions.js:5 | `Number` reads back the decimal numeral of any natural number |
| JsNumbers.ToNumberPadded | functions.js:5 | whitespace around a numeral does not change what `Number` reads: `Number(" 42\t")` is 42 |
| JsNumbers.DecimalValueLeadingZero | functions.js:5 | a leading zero does not change the value of a digit string |
| JsNumbers.ToNumberLeadingZero | functions.js:5 | a leading zero does not change what `Number` reads from a numeral: `Number("010")` is 10 |
| IpRange.ParseFormatQuad | functions.js:5-11 | a dotted quad written from four numbers parses back to those four numbers |
| IpRange.LexLeTransitive | functions.js:13-25 | the lexicographic order on octet tuples is transitive |
| IpRange.LexLeQuads | functions.js:13-25 | the lexicographic order on two numeric quads, spelled out octet by octet |
| IpRange.AtOrAboveIsLex | functions.js:14-19 | the nested lower-bound test is exactly "start ≤ address" lexicographically |
| IpRange.AtOrBelowIsLex | functions.js:20-24 | the nested upper-bound test is exactly "address ≤ end" lexicographically |
| IpRange.IsIpInRange | functions.js:4-26 | nothing is in range unless the first dotted part of the address and of both bounds reads as a number |
| IpRange.IsIpInRangeIsLex | functions.js:4-26 | for numeric quads, `isIpInRange` holds iff start ≤ address ≤ end in lexicographic octet order |
| IpRange.RangeContainsEnds | functions.js:4-26 | a non-empty range contains both of its ends |
| IpRange.EmptyRange | functions.js:4-26 | a range whose start is above its end contains nothing, not even addresses with NaN parts |
| IpRange.ParseTenBounds | functions.js:38 | the bounds of the 10/8 range parse to 10.0.0.0 and 10.255.255.255 |
| IpRange.ParseOneSevenTwoBounds | functions.js:39 | the bounds of the 172.16/12 range parse to 172.16.0.0 and 172.31.255.255 |
| IpRange.ParseOneNineTwoBounds | functions.js:40 | the bounds of the 192.168/16 range parse to 192.168.0.0 and 192.168.255.255 |
| IpRange.TenBlock | functions.js:38 | an address of four octets is in the first range iff its first octet is 10 |
| IpRange.OneSevenTwoBlock | functions.js:39 | an address of four octets is in the second range iff it starts with 172 followed by 16 to 31 |
| IpRange.OneNineTwoBlock | functions.js:40 | an address of four octets is in the third range iff it starts with 192.168 |
| IpRange.IsPrivateFormatted | functions.js:37-41 | a formatted address is private iff it lies in one of the three blocks |
| IpRange.FindFirst | functions.js:32-47 | the nested search returns the first element, in group-then-element order, that passes the test, and returns nothing iff none does |
| IpRange.GetInterfaceInfo | functions.js:28-48 | the result is the first non-internal IPv4 interface with a private address; there is none iff no interface qualifies |
| Oui.ParseOuiLine | backend.js:49-50 | an entry's prefix is the trimmed first field, with no tab and no whitespace at its ends; the vendor is present iff the line has a third field, and is then that field's first space-free word |
| Oui.ParseLines | backend.js:45-51 | the table has at most one entry per line, and no prefix holds a tab |
| Oui.ParseOui | backend.js:45-51 | the table of a text has at most one entry per line, and no prefix holds a tab |
| Oui.ParseLinesAppend | backend.js:45-51 | parsing distributes over concatenation of line lists |
| Oui.ParseOuiConcat | backend.js:45-51 | the table of `a + "\n" + b` is the table of `a` followed by the table of `b` |
| Oui.ParseOuiLineOrComment | backend.js:47-50 | a single comment line contributes nothing; any other single line contributes exactly its parse |
| Oui.FindPrefix | backend.js:59 | `find` returns the first entry whose prefix starts the address, or nothing when none does |
| Oui.FindPrefixAppend | backend.js:59 | searching a concatenated table finds the match in the first part if there is one, and otherwise searches the second |
| Oui.MacToVendor | backend.js:57-60 | a name is returned only for a present address and is the non-empty vendor of the first matching entry; a first match with a non-empty vendor always yields its name |
| Oui.MacToVendorIgnoresCase | backend.js:58 | the lookup of an address equals the lookup of its upper-cased form |
| Oui.BlankLineEntry | backend.js:49-50 | an empty line parses to an entry with an empty prefix and no vendor |
| Oui.BlankLineSplitsTable | backend.js:45-51 | a blank line puts exactly that entry between the tables of the text before and after it |
| Oui.LookupStopsAtBlank | backend.js:59 | once the lookup reaches an entry with an empty prefix and no vendor, the result is decided by the entries before it |
| Oui.BlankLineHidesRest | backend.js:45-60 | every lookup in a file with a blank line equals the lookup in the text before the blank line |
| Oui.ThreeFields | backend.js:49 | a line of three tab-free fields splits into exactly those fields |
| Oui.TwoWords | backend.js:50 | the first word of a space-free word followed by a space and any text is that word |
| Oui.ParseOuiLineRoundTrip | backend.js:45-51 | a vendor line written from a prefix, a short name and a full name of two or more words (such as `Cisco Systems, Inc`) parses back to the prefix and the first word of that name |
| Hosts.AddressIndex | backend.js:72-73 | the index is that of the first address record of the requested type, or the length when there is none |
| Hosts.SweepHosts | backend.js:71-80 | the sweep loop appends at most one row per swept host, and none of them at the machine's address |
| Hosts.Merge | backend.js:61-80 | the unsorted table is the machine's row followed by at most one row per swept host, and only that first row is at the machine's address |
| Hosts.SweepHostsAppend | backend.js:71-80 | the sweep loop distributes over concatenation of the sweep |
| Hosts.SweepHostsSingle | backend.js:71-80 | a sweep host at the machine's own address is skipped; any other host is appended with its looked-up vendor |
| Hosts.SweepHostsContents | backend.js:71-80 | no appended host has the machine's address, every vendor is its MAC's lookup, and the appended hosts are exactly the entries of the non-skipped sweep hosts |
| Hosts.MergeProperties | backend.js:61-80 | the merged table starts with the machine itself, holds it exactly once as the only row at its address, and every row's vendor is its MAC's lookup |
| Hosts.VendorGreater | backend.js:81 | `a.vendor > b.vendor`: nothing is greater than itself, `null` is greater than nothing, and a name is greater than `null` iff it reads as a positive number |
| Hosts.VendorGreaterAsymmetric | backend.js:81 | no two vendors are each greater than the other |
| Hosts.NullAndNameIncomparable | backend.js:81 | a vendor name that does not read as a number and `null` are each not greater than the other, so the comparator answers -1 both ways |
| Hosts.NumericNameAboveNull | backend.js:81 | a name that reads as a positive number is greater than `null` and `null` is not greater than it |
| Hosts.Insert | backend.js:81 | inserting a host adds exactly that host to the multiset of rows |
| Hosts.VendorSort | backend.js:81 | sorting keeps exactly the same rows: a permutation of its input |
| Hosts.InsertSorted | backend.js:81 | inserting a host with a vendor into a vendor-sorted table whose vendors are all present keeps it sorted |
| Hosts.VendorSortOrders | backend.js:81 | when every row has a vendor, the insertion sort standing in for the engine's sort yields ascending vendor order |
| Hosts.MapHosts | backend.js:55-85 | `mapHosts` fails exactly when there is no interface; otherwise it yields a permutation of the merge in which the machine appears once and alone at its address and every vendor is its MAC's lookup |
| Services.ParseServiceLine | backend.js:95-109 | a line is kept iff its third `;` field is "IPv4"; field k of a kept record is the line's k-th `;` piece, or `undefined` past the last piece; its first three fields are present, and no field holds a `;` |
| Services.PresentPrefixOfAt | backend.js:95-109 | the defined fields read out of the pieces are exactly the pieces from a given position on |
| Services.ServiceLineRoundTrip | backend.js:95-109 | for a kept line of at most ten fields, the defined fields are the line's pieces in place, every later field is `undefined`, and joining the defined fields with `;` gives back the line |
| Services.ParseServiceLines | backend.js:93-111 | there is at most one record per line, and every kept record has protocol "IPv4" |
| Services.ParseServices | backend.js:92-111 | the browser's output yields at most one record per line, each with protocol "IPv4" |
| Services.ParseServiceLinesAppend | backend.js:93-111 | the map-and-filter distributes over concatenation of line lists |
| Services.ParseServicesConcat | backend.js:92-111 | the services of `a + "\n" + b` are the services of `a` followed by those of `b` |
| Services.ParseServicesOneLine | backend.js:95-97 | a single line yields one record iff its third `;` field is "IPv4", and none otherwise |
| Services.SearchFrom | backend.js:118-120 | the search from a position succeeds iff the pattern matches at some later position |
| Services.Test | backend.js:118-120 | `regex.test` succeeds iff the pattern matches somewhere in the subject |
| Services.FirstRule | backend.js:118-120 | `find` over a rule table returns the first rule whose pattern matches, or nothing |
| Services.ClassifyService | backend.js:117-121 | a service's type is one of the rule names or "Unknown" |
| Services.FirstTaggedMatchAppend | backend.js:117-121 | the first match in two concatenated rule lists is in the first list if it matches there, and otherwise in the second |
| Services.FirstTaggedMatchTag | backend.js:118-120 | the first match over one field's rules is the name of that table's first matching rule |
| Services.ClassifyIsFirstMatch | backend.js:117-121 | with non-empty rule names, a service's type is the name of the first rule, across the record, attribute and host-name tables in that order, that matches its field; "Unknown" when none does |
| Services.ServicesAt | backend.js:114 | the services kept for an address are exactly those whose ip is that address |
| Services.AssignEach | backend.js:115-122 | the running type ends as the initial type, a rule name or "Unknown" |
| Services.AssignEachIsLast | backend.js:115-122 | the running type after the loop is the classification of the last service, or the initial type when there are none |
| Services.ServicesAtAppend | backend.js:114 | filtering distributes over concatenation of service lists |
| Services.LastAt | backend.js:114-122 | the index is the last service at the address, or -1 when there is none |
| Services.LastServiceAt | backend.js:114 | the filtered list is empty iff there is no service at the address, and otherwise ends with the last one |
| Services.DeviceType | backend.js:114-122 | a host's type is a rule name or "Unknown", and "Unknown" when no service is advertised at its address |
| Services.DeviceTypeIsLastService | backend.js:113-122 | a host's type is the classification of the last service advertised at its address, or "Unknown" when there is none |
| Services.ClassifyHosts | backend.js:113-129 | the typed table has the same hosts in the same order, each with a rule name or "Unknown" |
| Services.ClassifyHostsByLastService | backend.js:113-129 | every row of the typed table is typed by the last service at its address |
| Services.ServiceDiscovery | backend.js:92-129 | `serviceDiscovery` keeps the same hosts in the same order and types every row by the last service the output advertises at its address |
| Services.SourceRulesWellNamed | backend.js:135-144 | the rule tables name exactly Alexa, Fire TV, Nest Hub, Hue Hub, TV and MacBook, none empty |
| Services.TooShortNeverMatches | backend.js:118-120 | a pattern longer than the subject never matches |
| Services.NoSourcePatternMatchesUndefined | backend.js:118-120 | no rule matches the string "undefined" that an absent field is matched as |
| Services.AbsentFieldsAreUnknown | backend.js:117-121 | a service with no record, attributes or host name is "Unknown" |
| Services.AlexaPatternWildcard | backend.js:136 | the unescaped `.` of the Alexa rule matches the dot of `_amzn-alexa._tcp` and any other single-code-unit character that is not a line terminator |
| Services.AlexaRejectsWideOrTerminator | backend.js:136 | the `.` of the Alexa rule is not filled by a line terminator or by a character of two UTF-16 code units, such as an emoji |
| Services.ShortRecordMatchesNothing | backend.js:135-138 | a record type shorter than both record rules matches neither of them |
| Services.MacBookHostnameMatches | backend.js:144 | the host-name rule finds `-MacBook-` inside the example host name `Dans-MacBook-Pro.local` |
| Services.MacBookServiceIsMacBook | backend.js:117-121 | with the rules of backend.js, any service whose record and attributes match no rule and whose host name matches `/-MacBook-/` is a MacBook |
| Services.NoMatchIsUnknown | backend.js:117-121 | for any rule tables, a service that matches no rule in any of the three tables is "Unknown" |
| Services.LaterNonMatchResets | backend.js:115-122 | for any rule tables and any two services at an address, the first alone gives its own type, and followed by a service that matches nothing it gives "Unknown" |
| Services.MacBookThenPlainExample | backend.js:115-122 | on an example MacBook service and an example plain service at one address: the MacBook alone types the host "MacBook", and the plain one after it makes it "Unknown" |
| Discovery.Cycle | backend.js:148-149 | for a given interface, the typed table fails iff there is no interface, keeps every property of `mapHosts`, and types each row by its last service |
| Discovery.Discover | backend.js:146-149 | the cycle fails iff no interface qualifies; otherwise the table is a permutation of the merge for the first qualifying interface, the machine appears once, vendors are MAC lookups, and types come from the last service at each address |

## Left out

- The WebSocket server and `sendWsMessage` (`backend.js:12-27`) are left out: they broadcast the table and do not compute anything.
- Running `nmap` and `avahi-browse` is left out. These are process calls; their parsed output is a parameter.
- The XML parsing done by `xml2js` is left out. The sweep is given as its parsed structure, a sequence of address records per host.
- Reading, downloading and caching `oui.txt` is left out, because it is file and network I/O. The file's text is a parameter.
- Reading and writing `hosts.json` is left out for the same reason. The initial `hosts` read from it is overwritten by `mapHosts` before it is used.
- `os.networkInterfaces()` is left out because it reads the system. Its values, a sequence of per-device interface lists, are a parameter.
- Console output is left out.
- The module-level mutable `hosts` and `services` are replaced by values passed from one step to the next.
- The interface fields `cidr` and `netmask` are not modelled. `cidr` is used only as the `nmap` target and in a log line (`backend.js:68-69`). `netmask` is never read.
- Sweep result without a `host` list: the crash in `backend.js:71` when the parsed sweep has no `host` list is not modelled. A missing list is the empty sequence.
- Sweep host without an `address` list: a `<host>` element with no `<address>` child has no `address` key, so `host.address.find` at `backend.js:72` throws and `mapHosts` rejects. This is not modelled. Such a host is the empty sequence of address records and becomes a row with no address, MAC or vendor.
- Failing process calls: the rejected promises of failing process calls are not modelled.
- ToNumber: models `Number()` for blank strings and runs of decimal digits only, with exact integer values. Signs, decimals, hex, binary and octal literals (`0x`, `0b`, `0o`), exponents and `Infinity` give NaN in the model. JavaScript numbers are doubles, so a digit string beyond 2^53 rounds and a very long one reads as `Infinity`; the model keeps the exact value. The dotted parts of addresses never reach these cases except through malformed input. `ToNumber` is also applied to vendor names when one side of the sort comparison is `null` (`Hosts.VendorGreater`). There a name that JavaScript reads as a number the model does not would differ. Examples are `Infinity` (`"Infinity" > null` is true), a signed name such as `-1` (`null > "-1"` is `0 > -1`, true, while `VendorGreater` says `null` is never greater) and `0b1` (`"0b1" > null` is true).
- ToUpper: upper-cases ASCII letters only. JavaScript's full Unicode case mapping is not modelled.
- StrLessTotal: compares strings by code point. JavaScript compares UTF-16 code units, which can differ outside the Basic Multilingual Plane.
- VendorSort: an insertion sort stands in for the engine's sort, whose algorithm is not part of the program. It uses the program's own comparator. It is proved a permutation for every input, which is all the program promises. The comparator never returns 0, and it answers -1 both ways between `null` and a name and between two equal vendors. So JavaScript promises no order for any table holding a `null` vendor or a repeated vendor. `VendorSortOrders` (ordered when every vendor is present) is a property of the insertion sort standing in for the engine's sort, not a guarantee of `backend.js:81`.
- Test: models only what the rule expressions of `backend.js:135-144` use. That is literal characters and the unescaped `.` wildcard, with no anchors, classes or flags. Strings are sequences of code points, while JavaScript matches UTF-16 code units. The model's `.` matches only a one-unit character. A `.` at the edge of a pattern could also match half of a surrogate pair in JavaScript, which the model cannot express. The only `.` in these rules stands between two literals, so it never lines up with half a pair.
- ServiceLineRoundTrip: is stated for lines of at most ten fields. Fields after the tenth are dropped by the object literal in `backend.js:98-109`.

=== FILE: discovery.dfy ===
/** One discovery cycle of backend.js (lines 146-149 and the two functions they
    call), with the interface table, the vendor file, the parsed sweep and the
    browser's output passed in instead of read from the system. */
module Discovery {
  import opened Options
  import opened IpRange
  import opened Oui
  import opened Hosts
  import opened Services

  function HostsOf(typed: seq<TypedHost>): (hosts: seq<Host>)
    ensures |hosts| == |typed| && forall i :: 0 <= i < |typed| ==> hosts[i] == typed[i].host
  {
    seq(|typed|, i requires 0 <= i < |typed| => typed[i].host)
  }

  /** The table for a chosen interface: the merge and sort of the vendor-mapped hosts,
      each classified by the services at its address. It fails exactly when there
      is no interface, and keeps every property of the merge. */
  function Cycle(table: seq<OuiEntry>, iface: Option<NetworkInterface>, sweep: seq<SweepHost>, browseOutput: string)
    : (r: Result<seq<TypedHost>, MapError>)
    ensures r.Failure? <==> iface.None?
    ensures r.Success? ==> && multiset(HostsOf(r.value)) == multiset(Merge(table, iface.value, sweep))
                           && VantageOnce(HostsOf(r.value), VantageHost(table, iface.value))
                           && VendorsFromMacs(table, HostsOf(r.value))
    ensures r.Success? ==> TypedByLastService(SourceRules, r.value, ParseServices(browseOutput))
  {
    match MapHosts(table, iface, sweep)
    case Failure(e) => Failure(e)
    case Success(hosts) =>
      var typed := ServiceDiscovery(SourceRules, hosts, browseOutput);
      assert HostsOf(typed) == hosts;
      Success(typed)
  }

  /** The cycle fails exactly when no interface qualifies. Otherwise the table is a
      rearrangement of the merge for the first qualifying interface, the machine
      itself appears once and alone at its address, every vendor is the lookup of
      its row's MAC, and every device type is the classification of the last
      service advertised at the row's address ("Unknown" when there is none). */
  method Discover(interfaces: seq<seq<NetworkInterface>>, ouiText: string, sweep: seq<SweepHost>, browseOutput: string)
    returns (r: Result<seq<TypedHost>, MapError>)
    ensures r.Failure? <==> forall x :: x in Flatten(interfaces) ==> !Qualifies(x)
    ensures r.Success? ==>
              exists k :: && IsFirstAccepted(Flatten(interfaces), Qualifies, k)
                          && multiset(HostsOf(r.value)) == multiset(Merge(ParseOui(ouiText), Flatten(interfaces)[k], sweep))
                          && VantageOnce(HostsOf(r.value), VantageHost(ParseOui(ouiText), Flatten(interfaces)[k]))
    ensures r.Success? ==> VendorsFromMacs(ParseOui(ouiText), HostsOf(r.value))
    ensures r.Success? ==> TypedByLastService(SourceRules, r.value, ParseServices(browseOutput))
  {
    var table := ParseOui(ouiText);
    var iface := GetInterfaceInfo(interfaces);
    r := Cycle(table, iface, sweep, browseOutput);
    if r.Success? {
      ghost var k :| IsFirstAccepted(Flatten(interfaces), Qualifies, k) && Flatten(interfaces)[k] == iface.value;
      assert Merge(table, Flatten(interfaces)[k], sweep) == Merge(table, iface.value, sweep);
    }
  }
}

=== FILE: hosts.dfy ===
/** backend.js, `mapHosts`: seeding the host table with the machine itself,
    appending the sweep results and ordering the table by vendor. */
module Hosts {
  import opened Options
  import opened Strings
  import opened JsNumbers
  import opened IpRange
  import opened Oui

  /** One `<address>` element of a sweep host: the `addrtype` and `addr`
      attributes xml2js puts under `$`, each possibly missing. */
  datatype AddressRecord = AddressRecord(addrtype: Option<string>, addr: Option<string>)

  /** One `<host>` element of the sweep result: its address records, in document order. */
  type SweepHost = seq<AddressRecord>

  /** A row of the host table. `ip` and `mac` are `undefined` (`None`) when the
      sweep reported no such address; `vendor` is `null` (`None`) when unknown. */
  datatype Host = Host(ip: Option<string>, mac: Option<string>, vendor: Option<string>)

  /** The error the script raises when no interface qualifies: reading
      `iface.address` of `undefined` throws before any host is recorded. */
  datatype MapError = NoPrivateInterface

  /** The test of `host.address.find`: the record has the given type. */
  function OfType(kind: string): AddressRecord -> bool {
    (a: AddressRecord) => a.addrtype == Some(kind)
  }

  /** Index of the first record of the given type, `|records|` when there is none. */
  function AddressIndex(records: seq<AddressRecord>, kind: string): (k: nat)
    ensures k <= |records|
    ensures k < |records| ==> records[k].addrtype == Some(kind)
    ensures forall j :: 0 <= j < k ==> records[j].addrtype != Some(kind)
  {
    FindIndex(records, OfType(kind))
  }

  /** `host.address.find((a) => a?.$?.addrtype === kind)?.$?.addr`. */
  function FindAddress(records: seq<AddressRecord>, kind: string): Option<string> {
    var k := AddressIndex(records, kind);
    if k < |records| then records[k].addr else None
  }

  /** The table row for one swept host; its MAC is kept as the sweep spelled it. */
  function SweepEntry(table: seq<OuiEntry>, h: SweepHost): Host {
    var mac := FindAddress(h, "mac");
    Host(FindAddress(h, "ipv4"), mac, MacToVendor(table, mac))
  }

  /** The `forEach` over the sweep: every host whose IPv4 address is not the
      vantage address, in sweep order. Hosts without an IPv4 address stay. */
  function SweepHosts(table: seq<OuiEntry>, vantageIp: string, sweep: seq<SweepHost>): (r: seq<Host>)
    ensures |r| <= |sweep|
    ensures forall i :: 0 <= i < |r| ==> r[i].ip != Some(vantageIp)
  {
    if |sweep| == 0 then []
    else
      (if FindAddress(sweep[0], "ipv4") == Some(vantageIp) then [] else [SweepEntry(table, sweep[0])])
      + SweepHosts(table, vantageIp, sweep[1..])
  }

  /** The row for the machine itself: its address, its upper-cased MAC and that MAC's vendor. */
  function VantageHost(table: seq<OuiEntry>, iface: NetworkInterface): Host {
    Host(Some(iface.address), Some(ToUpper(iface.mac)), MacToVendor(table, Some(iface.mac)))
  }

  /** The table before sorting: the vantage host followed by the kept sweep hosts.
      It has at most one row per swept host besides the machine, and no row but
      the first is at the machine's address. */
  function Merge(table: seq<OuiEntry>, iface: NetworkInterface, sweep: seq<SweepHost>): (m: seq<Host>)
    ensures 1 <= |m| <= |sweep| + 1
    ensures m[0].ip == Some(iface.address)
    ensures forall i :: 1 <= i < |m| ==> m[i].ip != Some(iface.address)
  {
    [VantageHost(table, iface)] + SweepHosts(table, iface.address, sweep)
  }

  lemma {:induction false} SweepHostsAppend(table: seq<OuiEntry>, v: string, xs: seq<SweepHost>, ys: seq<SweepHost>)
    ensures SweepHosts(table, v, xs + ys) == SweepHosts(table, v, xs) + SweepHosts(table, v, ys)
  {
    if |xs| == 0 {
      assert xs + ys == ys;
    } else {
      assert (xs + ys)[0] == xs[0];
      assert (xs + ys)[1..] == xs[1..] + ys;
      SweepHostsAppend(table, v, xs[1..], ys);
    }
  }

  /** One swept host is dropped exactly when its IPv4 address is the vantage address. */
  lemma SweepHostsSingle(table: seq<OuiEntry>, v: string, h: SweepHost)
    ensures FindAddress(h, "ipv4") == Some(v) ==> SweepHosts(table, v, [h]) == []
    ensures FindAddress(h, "ipv4") != Some(v) ==> SweepHosts(table, v, [h]) == [SweepEntry(table, h)]
  {
    assert [h][1..] == [];
  }

  /** The kept rows are exactly the rows of the swept hosts not at the vantage address. */
  lemma {:induction false} SweepHostsContents(table: seq<OuiEntry>, v: string, sweep: seq<SweepHost>)
    ensures forall h :: h in SweepHosts(table, v, sweep) ==> h.ip != Some(v)
    ensures forall h :: h in SweepHosts(table, v, sweep) ==> h.vendor == MacToVendor(table, h.mac)
    ensures forall s :: s in sweep && FindAddress(s, "ipv4") != Some(v) ==> SweepEntry(table, s) in SweepHosts(table, v, sweep)
    ensures forall h :: h in SweepHosts(table, v, sweep) ==>
              exists s :: s in sweep && FindAddress(s, "ipv4") != Some(v) && h == SweepEntry(table, s)
  {
    if |sweep| > 0 {
      SweepHostsContents(table, v, sweep[1..]);
      assert sweep == [sweep[0]] + sweep[1..];
      var rest := SweepHosts(table, v, sweep[1..]);
      forall h | h in SweepHosts(table, v, sweep)
        ensures exists s :: s in sweep && FindAddress(s, "ipv4") != Some(v) && h == SweepEntry(table, s)
      {
        if h !in rest {
          assert h == SweepEntry(table, sweep[0]);
        } else {
          var s :| s in sweep[1..] && FindAddress(s, "ipv4") != Some(v) && h == SweepEntry(table, s);
          assert s in sweep;
        }
      }
    }
  }

  /** The invariant every row keeps from here on: its vendor is the lookup of its own MAC. */
  predicate VendorsFromMacs(table: seq<OuiEntry>, hosts: seq<Host>) {
    forall h :: h in hosts ==> h.vendor == MacToVendor(table, h.mac)
  }

  /** The machine itself appears exactly once and is the only row at its address. */
  predicate VantageOnce(hosts: seq<Host>, vantage: Host) {
    && multiset(hosts)[vantage] == 1
    && forall h :: h in hosts && h.ip == vantage.ip ==> h == vantage
  }

  /** The merged table starts with the machine itself, never repeats its address,
      and every row's vendor is the lookup of that row's MAC. */
  lemma MergeProperties(table: seq<OuiEntry>, iface: NetworkInterface, sweep: seq<SweepHost>)
    ensures var m := Merge(table, iface, sweep);
            && |m| >= 1 && m[0] == VantageHost(table, iface)
            && VantageOnce(m, VantageHost(table, iface))
            && VendorsFromMacs(table, m)
  {
    var v := VantageHost(table, iface);
    var rest := SweepHosts(table, iface.address, sweep);
    SweepHostsContents(table, iface.address, sweep);
    MacToVendorIgnoresCase(table, iface.mac);
    assert v !in rest;
    assert multiset(rest)[v] == 0;
    assert multiset([v] + rest) == multiset{v} + multiset(rest);
  }

  /** JavaScript's `a.vendor > b.vendor` for a string or `null` on each side:
      two strings compare as strings; against `null` both sides become numbers,
      `null` being 0. So `null` is never greater than anything, and a name is
      greater than `null` only when it reads as a positive number. Both hold for
      the digits-only `ToNumber`; with JavaScript's full `Number()` a name such as
      `"-1"` or `"Infinity"` would compare differently. */
  function VendorGreater(a: Option<string>, b: Option<string>): (r: bool)
    ensures a == b ==> !r
    ensures a.None? ==> !r
    ensures a.Some? && b.None? ==> (r <==> ToNumber(a.value).Num? && ToNumber(a.value).n > 0)
  {
    match (a, b)
    case (Some(x), Some(y)) => StrLessIrreflexive(x); StrLess(y, x)
    case (None, Some(y)) => Gt(Num(0), ToNumber(y))
    case (Some(x), None) => Gt(ToNumber(x), Num(0))
    case (None, None) => false
  }

  /** No two vendors are each greater than the other. */
  lemma VendorGreaterAsymmetric(a: Option<string>, b: Option<string>)
    ensures !(VendorGreater(a, b) && VendorGreater(b, a))
  {
    if a.Some? && b.Some? && StrLess(a.value, b.value) {
      StrLessAsymmetric(a.value, b.value);
    }
  }

  /** A vendor name that does not read as a number (any real vendor name) and `null`
      are each "not greater" than the other, so the comparator answers -1 both ways. */
  lemma NullAndNameIncomparable(x: string)
    requires |Trim(x)| > 0 && !AllDigits(Trim(x))
    ensures !VendorGreater(None, Some(x)) && !VendorGreater(Some(x), None)
  {
  }

  /** A name that reads as a positive number is greater than `null`: `"3Com"` is
      not such a name, but a vendor spelled `" 42 "` would be. */
  lemma NumericNameAboveNull(w1: string, n: nat, w2: string)
    requires AllWhitespace(w1) && AllWhitespace(w2) && n > 0
    ensures VendorGreater(Some(w1 + Decimal(n) + w2), None)
    ensures !VendorGreater(None, Some(w1 + Decimal(n) + w2))
  {
    ToNumberPadded(w1, n, w2);
  }

  /** Place `h` before the first row it is not greater than, under the
      comparator of backend.js, `(a, b) => a.vendor > b.vendor ? 1 : -1`. */
  function Insert(h: Host, sorted: seq<Host>): (r: seq<Host>)
    ensures multiset(r) == multiset(sorted) + multiset{h}
  {
    if |sorted| == 0 then [h]
    else if VendorGreater(h.vendor, sorted[0].vendor) then
      assert sorted == [sorted[0]] + sorted[1..];
      [sorted[0]] + Insert(h, sorted[1..])
    else [h] + sorted
  }

  /** `hosts.sort((a, b) => (a.vendor > b.vendor ? 1 : -1))`, as an insertion sort.
      The comparator never answers 0 and is not consistent once a `null` vendor or
      two equal vendors are involved, so JavaScript fixes only that the result is
      a rearrangement of the input. */
  function VendorSort(hosts: seq<Host>): (r: seq<Host>)
    ensures multiset(r) == multiset(hosts)
    ensures |r| == |hosts|
  {
    if |hosts| == 0 then []
    else
      assert hosts == [hosts[0]] + hosts[1..];
      Insert(hosts[0], VendorSort(hosts[1..]))
  }

  predicate AllVendorsPresent(hosts: seq<Host>) {
    forall h :: h in hosts ==> h.vendor.Some?
  }

  /** Ascending by vendor name. */
  predicate SortedByVendor(hosts: seq<Host>) {
    forall i, j :: 0 <= i < j < |hosts| ==> !StrLess(hosts[j].vendor.GetOr(""), hosts[i].vendor.GetOr(""))
  }

  lemma {:induction false} InsertSorted(h: Host, sorted: seq<Host>)
    requires h.vendor.Some? && AllVendorsPresent(sorted) && SortedByVendor(sorted)
    ensures SortedByVendor(Insert(h, sorted))
  {
    if |sorted| == 0 {
      return;
    }
    var x := h.vendor.value;
    var s0 := sorted[0].vendor.value;
    var r := Insert(h, sorted);
    if VendorGreater(h.vendor, sorted[0].vendor) {
      assert StrLess(s0, x);
      var tail := sorted[1..];
      assert AllVendorsPresent(tail) by {
        forall y | y in tail ensures y.vendor.Some? { assert y in sorted; }
      }
      InsertSorted(h, tail);
      var t := Insert(h, tail);
      assert r == [sorted[0]] + t;
      forall j | 0 < j < |r| ensures !StrLess(r[j].vendor.GetOr(""), s0) {
        assert r[j] == t[j - 1];
        assert r[j] in multiset(t);
        if r[j] == h {
          StrLessAsymmetric(s0, x);
        } else {
          assert r[j] in multiset(tail);
          var m :| 0 <= m < |tail| && tail[m] == r[j];
          assert sorted[m + 1] == r[j];
        }
      }
    } else {
      assert !StrLess(s0, x);
      assert r == [h] + sorted;
      forall j | 0 < j < |r| ensures !StrLess(r[j].vendor.GetOr(""), x) {
        var y := r[j].vendor.GetOr("");
        assert r[j] == sorted[j - 1];
        if StrLess(y, x) {
          if j - 1 > 0 {
            assert !StrLess(y, s0);
            if y != s0 {
              StrLessTotal(y, s0);
              StrLessTransitive(s0, y, x);
            }
          }
        }
      }
    }
  }

  /** When every row has a vendor, the insertion sort orders the table by vendor.
      This is a property of the insertion sort standing in for the engine's sort:
      two equal vendors already make the comparator inconsistent, and JavaScript
      then promises no order at all. */
  lemma {:induction false} VendorSortOrders(hosts: seq<Host>)
    requires AllVendorsPresent(hosts)
    ensures SortedByVendor(VendorSort(hosts))
  {
    if |hosts| > 0 {
      var tail := hosts[1..];
      assert AllVendorsPresent(tail) by {
        forall y | y in tail ensures y.vendor.Some? { assert y in hosts; }
      }
      VendorSortOrders(tail);
      var st := VendorSort(tail);
      assert AllVendorsPresent(st) by {
        forall y | y in st ensures y.vendor.Some? {
          assert y in multiset(st);
          assert y in multiset(tail);
        }
      }
      InsertSorted(hosts[0], st);
    }
  }

  /** `mapHosts()` up to the sort, over the interface choice, the vendor table and
      the parsed sweep: it fails when no interface qualifies, and otherwise yields a
      rearrangement of the merged table. */
  function MapHosts(table: seq<OuiEntry>, iface: Option<NetworkInterface>, sweep: seq<SweepHost>)
    : (r: Result<seq<Host>, MapError>)
    ensures r.Failure? <==> iface.None?
    ensures r.Success? ==> multiset(r.value) == multiset(Merge(table, iface.value, sweep))
    ensures r.Success? ==> VantageOnce(r.value, VantageHost(table, iface.value))
    ensures r.Success? ==> VendorsFromMacs(table, r.value)
  {
    match iface
    case None => Failure(NoPrivateInterface)
    case Some(i) =>
      var merged := Merge(table, i, sweep);
      MergeProperties(table, i, sweep);
      var sorted := VendorSort(merged);
      assert forall h :: h in sorted <==> h in merged by {
        forall h ensures h in sorted <==> h in merged {
          assert h in sorted <==> h in multiset(sorted);
          assert h in merged <==> h in multiset(merged);
        }
      }
      Success(sorted)
  }
}

=== FILE: ip_range.dfy ===
/** functions.js: the IPv4 range test and the choice of the machine's own
    private-network interface. */
module IpRange {
  import opened Options
  import opened Strings
  import opened JsNumbers

  /** The four values `ip.split(".").map(Number)` destructures into. A part the
      string does not have is `undefined`. It is read here as NaN, which differs
      from `undefined` only under `===` (`undefined === undefined` holds, while
      `NaN === NaN` does not). The difference never changes the range test. The
      absent parts are a suffix of each tuple. So once `===` holds between two
      absent parts, every later part is absent too, and the chain can only end
      in a `>=` or `<=` with `undefined`, which is false. */
  datatype Quad = Quad(a: JsNum, b: JsNum, c: JsNum, d: JsNum) {
    predicate IsNumeric() {
      a.Num? && b.Num? && c.Num? && d.Num?
    }

    function Octets(): seq<int>
      requires IsNumeric()
    {
      [a.n, b.n, c.n, d.n]
    }

    /** Every part is a number in 0..255. */
    predicate IsOctets() {
      IsNumeric() && 0 <= a.n < 256 && 0 <= b.n < 256 && 0 <= c.n < 256 && 0 <= d.n < 256
    }
  }

  function ParseQuad(s: string): Quad {
    var parts := Split(s, '.');
    Quad(ToNumberOpt(At(parts, 0)), ToNumberOpt(At(parts, 1)),
         ToNumberOpt(At(parts, 2)), ToNumberOpt(At(parts, 3)))
  }

  /** The dotted-quad spelling of four octets. */
  function FormatQuad(a: nat, b: nat, c: nat, d: nat): string {
    Join([Decimal(a), Decimal(b), Decimal(c), Decimal(d)], '.')
  }

  /** Reading back a formatted dotted quad gives its four numbers. */
  lemma ParseFormatQuad(a: nat, b: nat, c: nat, d: nat)
    ensures ParseQuad(FormatQuad(a, b, c, d)) == Quad(Num(a), Num(b), Num(c), Num(d))
  {
    var parts := [Decimal(a), Decimal(b), Decimal(c), Decimal(d)];
    forall i | 0 <= i < |parts| ensures '.' !in parts[i] {
      assert AllDigits(parts[i]);
    }
    SplitJoin(parts, '.');
    ToNumberDecimal(a);
    ToNumberDecimal(b);
    ToNumberDecimal(c);
    ToNumberDecimal(d);
  }

  /** Reference order: lexicographic comparison of equal-length integer tuples. */
  predicate LexLe(x: seq<int>, y: seq<int>)
    requires |x| == |y|
  {
    |x| == 0 || x[0] < y[0] || (x[0] == y[0] && LexLe(x[1..], y[1..]))
  }

  lemma {:induction false} LexLeTransitive(x: seq<int>, y: seq<int>, z: seq<int>)
    requires |x| == |y| == |z|
    requires LexLe(x, y) && LexLe(y, z)
    ensures LexLe(x, z)
  {
    if |x| > 0 && x[0] == y[0] && y[0] == z[0] {
      LexLeTransitive(x[1..], y[1..], z[1..]);
    }
  }

  /** The left conjunct of the range test: `ip` is at or above `start`,
      compared part by part from the most significant. */
  predicate AtOrAbove(ip: Quad, start: Quad) {
    || Gt(ip.a, start.a)
    || (StrictEq(ip.a, start.a)
        && (|| Gt(ip.b, start.b)
            || (StrictEq(ip.b, start.b)
                && (|| Gt(ip.c, start.c)
                    || (StrictEq(ip.c, start.c) && Ge(ip.d, start.d))))))
  }

  /** The right conjunct of the range test: `ip` is at or below `end`. */
  predicate AtOrBelow(ip: Quad, end: Quad) {
    || Lt(ip.a, end.a)
    || (StrictEq(ip.a, end.a)
        && (|| Lt(ip.b, end.b)
            || (StrictEq(ip.b, end.b)
                && (|| Lt(ip.c, end.c)
                    || (StrictEq(ip.c, end.c) && Le(ip.d, end.d))))))
  }

  predicate QuadInRange(ip: Quad, start: Quad, end: Quad) {
    AtOrAbove(ip, start) && AtOrBelow(ip, end)
  }

  /** `LexLe` on quads, unfolded. */
  lemma LexLeQuads(x: Quad, y: Quad)
    requires x.IsNumeric() && y.IsNumeric()
    ensures LexLe(x.Octets(), y.Octets()) <==>
      || x.a.n < y.a.n
      || (x.a.n == y.a.n
          && (|| x.b.n < y.b.n
              || (x.b.n == y.b.n
                  && (|| x.c.n < y.c.n
                      || (x.c.n == y.c.n && x.d.n <= y.d.n)))))
  {
    var u0, v0 := x.Octets(), y.Octets();
    var u1, v1 := [x.b.n, x.c.n, x.d.n], [y.b.n, y.c.n, y.d.n];
    var u2, v2 := [x.c.n, x.d.n], [y.c.n, y.d.n];
    var u3, v3 := [x.d.n], [y.d.n];
    assert u0[1..] == u1 && v0[1..] == v1;
    assert u1[1..] == u2 && v1[1..] == v2;
    assert u2[1..] == u3 && v2[1..] == v3;
    assert u3[1..] == [] && v3[1..] == [];
    assert LexLe(u3, v3) <==> x.d.n < y.d.n || (x.d.n == y.d.n && LexLe([], []));
    assert LexLe(u2, v2) <==> x.c.n < y.c.n || (x.c.n == y.c.n && LexLe(u3, v3));
    assert LexLe(u1, v1) <==> x.b.n < y.b.n || (x.b.n == y.b.n && LexLe(u2, v2));
    assert LexLe(u0, v0) <==> x.a.n < y.a.n || (x.a.n == y.a.n && LexLe(u1, v1));
  }

  lemma AtOrAboveIsLex(ip: Quad, start: Quad)
    requires ip.IsNumeric() && start.IsNumeric()
    ensures AtOrAbove(ip, start) <==> LexLe(start.Octets(), ip.Octets())
  {
    LexLeQuads(start, ip);
  }

  lemma AtOrBelowIsLex(ip: Quad, end: Quad)
    requires ip.IsNumeric() && end.IsNumeric()
    ensures AtOrBelow(ip, end) <==> LexLe(ip.Octets(), end.Octets())
  {
    LexLeQuads(ip, end);
  }

  /** `isIpInRange(ip, rangeStart, rangeEnd)`: the nested comparison of functions.js
      on the parsed parts. Since every comparison with NaN is false, nothing is in
      range when the first part of any of the three strings is not a number. */
  function IsIpInRange(ip: string, rangeStart: string, rangeEnd: string): (r: bool)
    ensures r ==> ParseQuad(ip).a.Num? && ParseQuad(rangeStart).a.Num? && ParseQuad(rangeEnd).a.Num?
  {
    QuadInRange(ParseQuad(ip), ParseQuad(rangeStart), ParseQuad(rangeEnd))
  }

  /** On well-formed dotted quads the range test is the lexicographic test
      start <= ip <= end on the octet tuples. */
  lemma IsIpInRangeIsLex(ip: string, rangeStart: string, rangeEnd: string)
    ensures ParseQuad(ip).IsNumeric() && ParseQuad(rangeStart).IsNumeric() && ParseQuad(rangeEnd).IsNumeric() ==>
              (IsIpInRange(ip, rangeStart, rangeEnd)
               <==> LexLe(ParseQuad(rangeStart).Octets(), ParseQuad(ip).Octets())
                    && LexLe(ParseQuad(ip).Octets(), ParseQuad(rangeEnd).Octets()))
  {
    var q, s, e := ParseQuad(ip), ParseQuad(rangeStart), ParseQuad(rangeEnd);
    if q.IsNumeric() && s.IsNumeric() && e.IsNumeric() {
      AtOrAboveIsLex(q, s);
      AtOrBelowIsLex(q, e);
    }
  }

  /** A non-empty range contains both of its end points. */
  lemma RangeContainsEnds(start: Quad, end: Quad)
    requires start.IsNumeric() && end.IsNumeric()
    requires LexLe(start.Octets(), end.Octets())
    ensures QuadInRange(start, start, end) && QuadInRange(end, start, end)
  {
    AtOrAboveIsLex(start, start);
    AtOrBelowIsLex(start, end);
    AtOrAboveIsLex(end, start);
    AtOrBelowIsLex(end, end);
  }

  /** A range whose start lies above its end contains no address at all, not even
      one with missing or non-numeric parts. */
  lemma EmptyRange(ip: Quad, start: Quad, end: Quad)
    requires start.IsNumeric() && end.IsNumeric()
    requires !LexLe(start.Octets(), end.Octets())
    ensures !QuadInRange(ip, start, end)
  {
    LexLeQuads(start, end);
  }

  /** The three private address blocks of section 3 of RFC 1918, as functions.js spells them. */
  const TenStart := "10.0.0.0"
  const TenEnd := "10.255.255.255"
  const OneSevenTwoStart := "172.16.0.0"
  const OneSevenTwoEnd := "172.31.255.255"
  const OneNineTwoStart := "192.168.0.0"
  const OneNineTwoEnd := "192.168.255.255"

  lemma DecimalTwoDigits(n: nat)
    requires 10 <= n < 100
    ensures Decimal(n) == [DigitChar(n / 10), DigitChar(n % 10)]
  {
  }

  lemma DecimalThreeDigits(n: nat)
    requires 100 <= n < 1000
    ensures Decimal(n) == [DigitChar(n / 100), DigitChar(n / 10 % 10), DigitChar(n % 10)]
  {
    DecimalTwoDigits(n / 10);
  }

  lemma DecimalConstants()
    ensures Decimal(0) == "0" && Decimal(10) == "10" && Decimal(16) == "16" && Decimal(31) == "31"
    ensures Decimal(172) == "172" && Decimal(192) == "192" && Decimal(168) == "168" && Decimal(255) == "255"
  {
    DecimalTwoDigits(10);
    DecimalTwoDigits(16);
    DecimalTwoDigits(31);
    DecimalThreeDigits(172);
    DecimalThreeDigits(192);
    DecimalThreeDigits(168);
    DecimalThreeDigits(255);
  }

  lemma ParseTenBounds()
    ensures ParseQuad(TenStart) == Quad(Num(10), Num(0), Num(0), Num(0))
    ensures ParseQuad(TenEnd) == Quad(Num(10), Num(255), Num(255), Num(255))
  {
    DecimalConstants();
    assert FormatQuad(10, 0, 0, 0) == TenStart;
    assert FormatQuad(10, 255, 255, 255) == TenEnd;
    ParseFormatQuad(10, 0, 0, 0);
    ParseFormatQuad(10, 255, 255, 255);
  }

  lemma ParseOneSevenTwoBounds()
    ensures ParseQuad(OneSevenTwoStart) == Quad(Num(172), Num(16), Num(0), Num(0))
    ensures ParseQuad(OneSevenTwoEnd) == Quad(Num(172), Num(31), Num(255), Num(255))
  {
    DecimalConstants();
    assert FormatQuad(172, 16, 0, 0) == OneSevenTwoStart;
    assert FormatQuad(172, 31, 255, 255) == OneSevenTwoEnd;
    ParseFormatQuad(172, 16, 0, 0);
    ParseFormatQuad(172, 31, 255, 255);
  }

  lemma ParseOneNineTwoBounds()
    ensures ParseQuad(OneNineTwoStart) == Quad(Num(192), Num(168), Num(0), Num(0))
    ensures ParseQuad(OneNineTwoEnd) == Quad(Num(192), Num(168), Num(255), Num(255))
  {
    DecimalConstants();
    assert FormatQuad(192, 168, 0, 0) == OneNineTwoStart;
    assert FormatQuad(192, 168, 255, 255) == OneNineTwoEnd;
    ParseFormatQuad(192, 168, 0, 0);
    ParseFormatQuad(192, 168, 255, 255);
  }

  /** The private-range test of `getInterfaceInfo`. */
  predicate IsPrivateAddress(ip: string) {
    || IsIpInRange(ip, TenStart, TenEnd)
    || IsIpInRange(ip, OneSevenTwoStart, OneSevenTwoEnd)
    || IsIpInRange(ip, OneNineTwoStart, OneNineTwoEnd)
  }

  /** On real octets the first range is exactly the block 10/8. */
  lemma TenBlock(ip: string)
    requires ParseQuad(ip).IsOctets()
    ensures IsIpInRange(ip, TenStart, TenEnd) <==> ParseQuad(ip).a.n == 10
  {
    var q := ParseQuad(ip);
    ParseTenBounds();
    IsIpInRangeIsLex(ip, TenStart, TenEnd);
    LexLeQuads(ParseQuad(TenStart), q);
    LexLeQuads(q, ParseQuad(TenEnd));
  }

  /** On real octets the second range is exactly the block 172.16/12. */
  lemma OneSevenTwoBlock(ip: string)
    requires ParseQuad(ip).IsOctets()
    ensures IsIpInRange(ip, OneSevenTwoStart, OneSevenTwoEnd)
            <==> ParseQuad(ip).a.n == 172 && 16 <= ParseQuad(ip).b.n <= 31
  {
    var q := ParseQuad(ip);
    ParseOneSevenTwoBounds();
    IsIpInRangeIsLex(ip, OneSevenTwoStart, OneSevenTwoEnd);
    LexLeQuads(ParseQuad(OneSevenTwoStart), q);
    LexLeQuads(q, ParseQuad(OneSevenTwoEnd));
  }

  /** On real octets the third range is exactly the block 192.168/16. */
  lemma OneNineTwoBlock(ip: string)
    requires ParseQuad(ip).IsOctets()
    ensures IsIpInRange(ip, OneNineTwoStart, OneNineTwoEnd)
            <==> ParseQuad(ip).a.n == 192 && ParseQuad(ip).b.n == 168
  {
    var q := ParseQuad(ip);
    ParseOneNineTwoBounds();
    IsIpInRangeIsLex(ip, OneNineTwoStart, OneNineTwoEnd);
    LexLeQuads(ParseQuad(OneNineTwoStart), q);
    LexLeQuads(q, ParseQuad(OneNineTwoEnd));
  }

  /** The same, stated for every formatted dotted quad. */
  lemma IsPrivateFormatted(a: nat, b: nat, c: nat, d: nat)
    requires a < 256 && b < 256 && c < 256 && d < 256
    ensures IsPrivateAddress(FormatQuad(a, b, c, d))
            <==> a == 10 || (a == 172 && 16 <= b <= 31) || (a == 192 && b == 168)
  {
    var ip := FormatQuad(a, b, c, d);
    ParseFormatQuad(a, b, c, d);
    TenBlock(ip);
    OneSevenTwoBlock(ip);
    OneNineTwoBlock(ip);
  }

  /** One entry of `os.networkInterfaces()`, with the fields the script reads. */
  datatype NetworkInterface = NetworkInterface(address: string, family: string, mac: string, internal: bool)

  /** What `getInterfaceInfo` looks for: an external IPv4 interface with a private address. */
  predicate Qualifies(info: NetworkInterface) {
    !info.internal && info.family == "IPv4" && IsPrivateAddress(info.address)
  }

  /** The interfaces in iteration order: `Object.values(interfaces)` and then each list. */
  function Flatten<T>(groups: seq<seq<T>>): seq<T> {
    if |groups| == 0 then [] else Flatten(groups[..|groups| - 1]) + groups[|groups| - 1]
  }

  lemma {:induction false} FlattenAppend<T>(xs: seq<seq<T>>, ys: seq<seq<T>>)
    ensures Flatten(xs + ys) == Flatten(xs) + Flatten(ys)
  {
    if |ys| > 0 {
      var zs := xs + ys;
      assert zs[..|zs| - 1] == xs + ys[..|ys| - 1];
      FlattenAppend(xs, ys[..|ys| - 1]);
    } else {
      assert xs + ys == xs;
    }
  }

  lemma FlattenSnoc<T>(xs: seq<seq<T>>, i: nat)
    requires i < |xs|
    ensures Flatten(xs[..i + 1]) == Flatten(xs[..i]) + xs[i]
  {
    assert xs[..i + 1][..i] == xs[..i];
  }

  /** The two nested loops of `getInterfaceInfo`: walk the groups in order and
      each group in order, and return the first element `accept` admits. */
  method FindFirst<T>(groups: seq<seq<T>>, accept: T -> bool) returns (r: Option<T>)
    ensures r.Some? ==> accept(r.value)
    ensures r.Some? ==> exists k :: IsFirstAccepted(Flatten(groups), accept, k) && Flatten(groups)[k] == r.value
    ensures r.None? <==> forall x :: x in Flatten(groups) ==> !accept(x)
  {
    var i := 0;
    while i < |groups|
      invariant 0 <= i <= |groups|
      invariant forall x :: x in Flatten(groups[..i]) ==> !accept(x)
    {
      var group := groups[i];
      var j := 0;
      while j < |group|
        invariant 0 <= j <= |group|
        invariant forall x :: x in group[..j] ==> !accept(x)
      {
        var info := group[j];
        if accept(info) {
          FirstAcceptedWitness(groups, accept, i, j);
          return Some(info);
        }
        assert group[..j + 1] == group[..j] + [info];
        j := j + 1;
      }
      FlattenSnoc(groups, i);
      assert group[..j] == group;
      i := i + 1;
    }
    assert groups[..i] == groups;
    return None;
  }

  /** Where element `j` of group `i` lands in the flattened sequence, and what precedes it. */
  lemma FlattenIndex<T>(xs: seq<seq<T>>, i: nat, j: nat)
    requires i < |xs| && j < |xs[i]|
    ensures |Flatten(xs[..i])| + j < |Flatten(xs)|
    ensures Flatten(xs)[|Flatten(xs[..i])| + j] == xs[i][j]
    ensures Flatten(xs)[..|Flatten(xs[..i])| + j] == Flatten(xs[..i]) + xs[i][..j]
  {
    assert xs == (xs[..i] + [xs[i]]) + xs[i + 1..];
    FlattenAppend(xs[..i] + [xs[i]], xs[i + 1..]);
    assert (xs[..i] + [xs[i]])[..i] == xs[..i];
    assert Flatten(xs) == Flatten(xs[..i]) + xs[i] + Flatten(xs[i + 1..]);
  }

  lemma FirstAcceptedWitness<T>(groups: seq<seq<T>>, accept: T -> bool, i: nat, j: nat)
    requires i < |groups| && j < |groups[i]|
    requires forall x :: x in Flatten(groups[..i]) ==> !accept(x)
    requires forall x :: x in groups[i][..j] ==> !accept(x)
    requires accept(groups[i][j])
    ensures IsFirstAccepted(Flatten(groups), accept, |Flatten(groups[..i])| + j)
    ensures Flatten(groups)[|Flatten(groups[..i])| + j] == groups[i][j]
  {
    FlattenIndex(groups, i, j);
    var flat := Flatten(groups);
    var k := |Flatten(groups[..i])| + j;
    var prefix := Flatten(groups[..i]) + groups[i][..j];
    forall m | 0 <= m < k ensures !accept(flat[m]) {
      assert flat[m] == prefix[m];
      assert prefix[m] in Flatten(groups[..i]) || prefix[m] in groups[i][..j];
    }
  }

  /** `getInterfaceInfo()`, over the interface table passed in: the first external
      IPv4 interface with a private address, in iteration order, and nothing (not
      an error) when none qualifies. */
  method GetInterfaceInfo(interfaces: seq<seq<NetworkInterface>>) returns (r: Option<NetworkInterface>)
    ensures r.Some? ==> !r.value.internal && r.value.family == "IPv4" && IsPrivateAddress(r.value.address)
    ensures r.Some? ==> exists k :: IsFirstAccepted(Flatten(interfaces), Qualifies, k) && Flatten(interfaces)[k] == r.value
    ensures r.None? <==> forall x :: x in Flatten(interfaces) ==> !Qualifies(x)
  {
    r := FindFirst(interfaces, Qualifies);
  }
}

=== FILE: numbers.dfy ===
/** The part of JavaScript's number semantics the script touches: `Number(s)` on
    short decimal strings and the relational operators, under which NaN (and
    `undefined`, which converts to NaN) compares false with everything. */
module JsNumbers {
  import opened Options
  import opened Strings

  /** A JavaScript number as this model needs it: an integer, or NaN. */
  datatype JsNum = Num(n: int) | NaN

  predicate Gt(x: JsNum, y: JsNum) { x.Num? && y.Num? && x.n > y.n }
  predicate Ge(x: JsNum, y: JsNum) { x.Num? && y.Num? && x.n >= y.n }
  predicate Lt(x: JsNum, y: JsNum) { x.Num? && y.Num? && x.n < y.n }
  predicate Le(x: JsNum, y: JsNum) { x.Num? && y.Num? && x.n <= y.n }
  /** `===`: NaN is not equal even to itself. */
  predicate StrictEq(x: JsNum, y: JsNum) { x.Num? && y.Num? && x.n == y.n }

  predicate IsDigit(c: char) { '0' <= c <= '9' }

  predicate AllDigits(s: string) {
    forall i :: 0 <= i < |s| ==> IsDigit(s[i])
  }

  function DigitValue(c: char): nat
    requires IsDigit(c)
  {
    c as int - '0' as int
  }

  function DigitChar(d: nat): (c: char)
    requires d < 10
    ensures IsDigit(c) && DigitValue(c) == d
  {
    ('0' as int + d) as char
  }

  /** The value of a string of decimal digits, most significant first. */
  function DecimalValue(s: string): nat
    requires AllDigits(s)
  {
    if |s| == 0 then 0 else DecimalValue(s[..|s| - 1]) * 10 + DigitValue(s[|s| - 1])
  }

  /** The decimal spelling of `n`, as `String(n)` writes it. Reading it back gives `n`. */
  function Decimal(n: nat): (s: string)
    ensures |s| >= 1 && AllDigits(s)
    ensures DecimalValue(s) == n
  {
    if n < 10 then [DigitChar(n)]
    else
      var s := Decimal(n / 10) + [DigitChar(n % 10)];
      assert s[..|s| - 1] == Decimal(n / 10);
      s
  }

  /** `Number(s)` for a string: surrounding whitespace is ignored, the empty
      string is 0, a run of decimal digits is its value and anything else is NaN. */
  function ToNumber(s: string): (x: JsNum)
    ensures x.NaN? <==> |Trim(s)| > 0 && !AllDigits(Trim(s))
    ensures |Trim(s)| == 0 ==> x == Num(0)
    ensures x.Num? ==> x.n >= 0
    ensures x.Num? && |Trim(s)| > 0 ==> x.n == DecimalValue(Trim(s))
  {
    var t := Trim(s);
    if |t| == 0 then Num(0)
    else if AllDigits(t) then Num(DecimalValue(t))
    else NaN
  }

  /** `Number(v)` where `v` may be `undefined`, which converts to NaN. */
  function ToNumberOpt(v: Option<string>): (x: JsNum)
    ensures v.None? ==> x.NaN?
  {
    match v
    case None => NaN
    case Some(s) => ToNumber(s)
  }

  /** `Number(String(n)) === n` for every natural number. */
  lemma ToNumberDecimal(n: nat)
    ensures ToNumber(Decimal(n)) == Num(n)
  {
    var s := Decimal(n);
    assert !IsJsWhitespace(s[0]) && !IsJsWhitespace(s[|s| - 1]) by {
      assert IsDigit(s[0]) && IsDigit(s[|s| - 1]);
    }
    TrimUnchanged(s);
  }

  /** Whitespace around a numeral does not change what `Number` reads. */
  lemma ToNumberPadded(w1: string, n: nat, w2: string)
    requires AllWhitespace(w1) && AllWhitespace(w2)
    ensures ToNumber(w1 + Decimal(n) + w2) == Num(n)
  {
    var s := Decimal(n);
    assert IsDigit(s[0]) && IsDigit(s[|s| - 1]);
    TrimPadded(w1, s, w2);
  }

  /** A leading zero does not change the value of a digit string. */
  lemma {:induction false} DecimalValueLeadingZero(s: string)
    requires AllDigits(s)
    ensures AllDigits("0" + s) && DecimalValue("0" + s) == DecimalValue(s)
  {
    var z := "0" + s;
    assert forall i :: 0 <= i < |z| ==> IsDigit(z[i]) by {
      forall i | 0 <= i < |z| ensures IsDigit(z[i]) {
        if i > 0 { assert z[i] == s[i - 1]; }
      }
    }
    if |s| > 0 {
      var init := s[..|s| - 1];
      assert z[..|z| - 1] == "0" + init;
      assert z[|z| - 1] == s[|s| - 1];
      DecimalValueLeadingZero(init);
    } else {
      assert z[..|z| - 1] == "";
    }
  }

  /** Leading zeros do not change what `Number` reads from a numeral: `Number("007") === 7`. */
  lemma ToNumberLeadingZero(s: string)
    requires |s| > 0 && AllDigits(s)
    ensures ToNumber("0" + s) == ToNumber(s)
  {
    DecimalValueLeadingZero(s);
    var z := "0" + s;
    assert IsDigit(s[0]) && IsDigit(s[|s| - 1]) && z[|z| - 1] == s[|s| - 1];
    TrimUnchanged(s);
    TrimUnchanged(z);
  }
}

=== FILE: options.dfy ===
/** Optional and failing values, standing in for JavaScript's `undefined`/`null`
    and for the exceptions the discovery script can raise, and the first-match
    search behind the script's `find` calls. */
module Options {

  /** `None` is JavaScript's `undefined` (or `null`, where the script uses it as "no value"). */
  datatype Option<+T> = None | Some(value: T) {

    /** The value, or `default` when absent. */
    function GetOr(default: T): T {
      match this
      case Some(v) => v
      case None => default
    }
  }

  /** A computation that either yields a value or fails with an error. */
  datatype Result<+R, +E> = Success(value: R) | Failure(error: E)

  /** JavaScript array indexing: `a[i]` is `undefined` past the end. */
  function At<T>(a: seq<T>, i: nat): (r: Option<T>)
    ensures r.Some? <==> i < |a|
    ensures r.Some? ==> r.value == a[i]
  {
    if i < |a| then Some(a[i]) else None
  }

  /** Position `k` holds the first element of `xs` that `accept` admits. */
  predicate IsFirstAccepted<T>(xs: seq<T>, accept: T -> bool, k: int) {
    && 0 <= k < |xs|
    && accept(xs[k])
    && forall j :: 0 <= j < k ==> !accept(xs[j])
  }

  /** `xs.findIndex(accept)`, with `|xs|` in place of -1 when nothing is admitted. */
  function FindIndex<T>(xs: seq<T>, accept: T -> bool): (k: nat)
    ensures k <= |xs|
    ensures k < |xs| ==> IsFirstAccepted(xs, accept, k)
    ensures k == |xs| ==> forall j :: 0 <= j < |xs| ==> !accept(xs[j])
  {
    if |xs| == 0 then 0
    else if accept(xs[0]) then 0
    else 1 + FindIndex(xs[1..], accept)
  }

  /** Searching a concatenation finds the match in the first part if there is one,
      and otherwise searches the second. */
  lemma {:induction false} FindIndexAppend<T>(xs: seq<T>, ys: seq<T>, accept: T -> bool)
    ensures FindIndex(xs, accept) < |xs| ==> FindIndex(xs + ys, accept) == FindIndex(xs, accept)
    ensures FindIndex(xs, accept) == |xs| ==> FindIndex(xs + ys, accept) == |xs| + FindIndex(ys, accept)
  {
    if |xs| > 0 {
      assert (xs + ys)[0] == xs[0];
      assert (xs + ys)[1..] == xs[1..] + ys;
      FindIndexAppend(xs[1..], ys, accept);
    } else {
      assert xs + ys == ys;
    }
  }
}

=== FILE: oui.dfy ===
/** backend.js, vendor table: parsing the tab-separated OUI file (`loadOui`) and
    looking a hardware address up in it (`macToVendor`). */
module Oui {
  import opened Options
  import opened Strings

  /** One entry of the vendor table: an address prefix and the first word of its vendor name.
      `vendor` is `None` when the line has fewer than three tab-separated fields. */
  datatype OuiEntry = OuiEntry(mac: string, vendor: Option<string>)

  /** One non-comment line, `line.split("\t").map(trim)` destructured as
      `[mac, _shortVendor, vendor]`, keeping `vendor?.split(" ")[0]`. The prefix is
      the trimmed first field: no tab and no whitespace at its ends. The vendor is
      present exactly when the line has a third field, and is then the first
      space-separated word of that field, trimmed. */
  function ParseOuiLine(line: string): (e: OuiEntry)
    ensures e.mac == Trim(Split(line, '\t')[0])
    ensures '\t' !in e.mac
    ensures |e.mac| > 0 ==> !IsJsWhitespace(e.mac[0]) && !IsJsWhitespace(e.mac[|e.mac| - 1])
    ensures e.vendor.Some? <==> |Split(line, '\t')| >= 3
    ensures |Split(line, '\t')| >= 3 ==>
              var v := e.vendor.value;
              var full := Trim(Split(line, '\t')[2]);
              && ' ' !in v
              && StartsWith(full, v)
              && (|v| < |full| ==> full[|v|] == ' ')
  {
    var fields := Split(line, '\t');
    TrimExcludes(fields[0], '\t');
    OuiEntry(Trim(fields[0]), if |fields| >= 3 then Some(FirstWord(Trim(fields[2]))) else None)
  }

  /** The entries one line contributes: none for a comment line, its parse otherwise. */
  function LineEntries(line: string): (es: seq<OuiEntry>)
    ensures |es| <= 1
  {
    if StartsWith(line, "#") then [] else [ParseOuiLine(line)]
  }

  /** The entries of the lines that do not start with `#`, in order. */
  function ParseLines(lines: seq<string>): (entries: seq<OuiEntry>)
    ensures |entries| <= |lines|
    ensures forall i :: 0 <= i < |entries| ==> '\t' !in entries[i].mac
  {
    if |lines| == 0 then []
    else LineEntries(lines[0]) + ParseLines(lines[1..])
  }

  /** The parsing half of `loadOui`: split the text into lines, drop the comment
      lines and parse each remaining line into one entry. */
  function ParseOui(text: string): (entries: seq<OuiEntry>)
    ensures |entries| <= |Split(text, '\n')|
    ensures forall i :: 0 <= i < |entries| ==> '\t' !in entries[i].mac
  {
    ParseLines(Split(text, '\n'))
  }

  lemma {:induction false} ParseLinesAppend(xs: seq<string>, ys: seq<string>)
    ensures ParseLines(xs + ys) == ParseLines(xs) + ParseLines(ys)
  {
    if |xs| == 0 {
      assert xs + ys == ys;
    } else {
      var zs := xs + ys;
      assert zs[0] == xs[0];
      assert zs[1..] == xs[1..] + ys;
      ParseLinesAppend(xs[1..], ys);
      var h := LineEntries(xs[0]);
      calc {
        ParseLines(zs);
        h + ParseLines(xs[1..] + ys);
        h + (ParseLines(xs[1..]) + ParseLines(ys));
        (h + ParseLines(xs[1..])) + ParseLines(ys);
      }
    }
  }

  /** Parsing distributes over lines: the table of `a` followed by a line break and
      `b` is the table of `a` followed by the table of `b`. */
  lemma ParseOuiConcat(a: string, b: string)
    ensures ParseOui(a + "\n" + b) == ParseOui(a) + ParseOui(b)
  {
    SplitConcat(a, b, '\n');
    ParseLinesAppend(Split(a, '\n'), Split(b, '\n'));
  }

  /** A single line yields no entry when it is a comment and exactly one entry otherwise. */
  lemma ParseOuiLineOrComment(line: string)
    requires '\n' !in line
    ensures StartsWith(line, "#") ==> ParseOui(line) == []
    ensures !StartsWith(line, "#") ==> ParseOui(line) == [ParseOuiLine(line)]
  {
    SplitNoSeparator(line, '\n');
  }

  /** The test of `oui.find`: the entry's prefix starts the (upper-cased) address `u`. */
  function PrefixOf(u: string): OuiEntry -> bool {
    (o: OuiEntry) => StartsWith(u, o.mac)
  }

  /** Entry `k` is the first whose prefix starts the (upper-cased) address `u`. */
  predicate IsFirstPrefixMatch(table: seq<OuiEntry>, u: string, k: int) {
    IsFirstAccepted(table, PrefixOf(u), k)
  }

  /** `oui.find((o) => u.startsWith(o.mac))`, as an index: `|table|` when nothing matches. */
  function FindPrefix(table: seq<OuiEntry>, u: string): (k: nat)
    ensures k <= |table|
    ensures k < |table| ==> IsFirstPrefixMatch(table, u, k)
    ensures k == |table| ==> forall j :: 0 <= j < |table| ==> !StartsWith(u, table[j].mac)
  {
    FindIndex(table, PrefixOf(u))
  }

  /** `macToVendor(mac)`: upper-case the address and return the vendor of the first
      entry, in table order, whose prefix starts it; `null` when the address is
      absent, when no entry matches, or when the first match has no (or an empty)
      vendor, even if a later entry would have one. */
  function MacToVendor(table: seq<OuiEntry>, mac: Option<string>): (r: Option<string>)
    ensures r.Some? ==> && mac.Some? && r.value != ""
                        && exists k :: IsFirstPrefixMatch(table, ToUpper(mac.value), k) && table[k].vendor == r
    ensures mac.Some? && (exists k :: IsFirstPrefixMatch(table, ToUpper(mac.value), k)
                                       && table[k].vendor.Some? && table[k].vendor.value != "")
            ==> r.Some?
  {
    match mac
    case None => None
    case Some(m) =>
      var u := ToUpper(m);
      var k := FindPrefix(table, u);
      if k < |table| && table[k].vendor.Some? && table[k].vendor.value != "" then table[k].vendor
      else None
  }

  /** The lookup ignores the case of the address. */
  lemma MacToVendorIgnoresCase(table: seq<OuiEntry>, mac: string)
    ensures MacToVendor(table, Some(mac)) == MacToVendor(table, Some(ToUpper(mac)))
  {
    ToUpperIdempotent(mac);
  }

  lemma FindPrefixAppend(xs: seq<OuiEntry>, ys: seq<OuiEntry>, u: string)
    ensures FindPrefix(xs, u) < |xs| ==> FindPrefix(xs + ys, u) == FindPrefix(xs, u)
    ensures FindPrefix(xs, u) == |xs| ==> FindPrefix(xs + ys, u) == |xs| + FindPrefix(ys, u)
  {
    FindIndexAppend(xs, ys, PrefixOf(u));
  }

  /** The entry an empty line parses to: an empty prefix and no vendor. */
  lemma BlankLineEntry()
    ensures ParseOui("") == [OuiEntry("", None)]
  {
    ParseOuiLineOrComment("");
    assert Split("", '\t') == [""];
    assert Trim("") == "";
  }

  /** A blank line splits the table: the entries before it, its own entry, the entries after it. */
  lemma BlankLineSplitsTable(a: string, b: string)
    ensures ParseOui(a + "\n" + "\n" + b) == ParseOui(a) + ([OuiEntry("", None)] + ParseOui(b))
  {
    var e: string := [];
    var tail := e + "\n" + b;
    assert a + "\n" + "\n" + b == a + "\n" + tail;
    ParseOuiConcat(a, tail);
    ParseOuiConcat(e, b);
    BlankLineEntry();
    assert ParseOui(tail) == [OuiEntry("", None)] + ParseOui(b);
  }

  /** An entry with an empty prefix and no vendor ends every lookup that reaches it. */
  lemma LookupStopsAtBlank(xs: seq<OuiEntry>, ys: seq<OuiEntry>, mac: Option<string>)
    ensures MacToVendor(xs + ([OuiEntry("", None)] + ys), mac) == MacToVendor(xs, mac)
  {
    if mac.Some? {
      var u := ToUpper(mac.value);
      var rest := [OuiEntry("", None)] + ys;
      FindPrefixAppend(xs, rest, u);
      assert StartsWith(u, rest[0].mac);
      assert FindPrefix(rest, u) == 0;
    }
  }

  /** A blank line hides every entry after it: its prefix is the empty string, which
      starts every address, and it has no vendor. A lookup in a file with a blank
      line is the lookup in the part before it. */
  lemma BlankLineHidesRest(a: string, b: string, mac: Option<string>)
    ensures MacToVendor(ParseOui(a + "\n" + "\n" + b), mac) == MacToVendor(ParseOui(a), mac)
  {
    BlankLineSplitsTable(a, b);
    LookupStopsAtBlank(ParseOui(a), ParseOui(b), mac);
  }

  /** A line of three tab-free fields splits into exactly those fields. */
  lemma ThreeFields(a: string, b: string, c: string)
    requires '\t' !in a && '\t' !in b && '\t' !in c
    ensures Split(a + "\t" + b + "\t" + c, '\t') == [a, b, c]
  {
    assert a + "\t" + b + "\t" + c == a + "\t" + (b + "\t" + c);
    SplitConcat(a, b + "\t" + c, '\t');
    SplitConcat(b, c, '\t');
    SplitNoSeparator(a, '\t');
    SplitNoSeparator(b, '\t');
    SplitNoSeparator(c, '\t');
  }

  /** The first word of a word followed by a space and any text. */
  lemma TwoWords(a: string, b: string)
    requires ' ' !in a
    ensures FirstWord(a + " " + b) == a
  {
    SplitConcat(a, b, ' ');
    SplitNoSeparator(a, ' ');
  }

  /** A line of exactly three fields parses to its trimmed first field and the
      first word of its trimmed third field. */
  lemma ParseThreeFieldLine(line: string, a: string, b: string, c: string)
    requires Split(line, '\t') == [a, b, c]
    ensures ParseOuiLine(line) == OuiEntry(Trim(a), Some(FirstWord(Trim(c))))
  {
  }

  lemma NoTabInWords(word: string, rest: string)
    requires '\t' !in word && '\t' !in rest
    ensures '\t' !in word + " " + rest
  {
    var full := word + " " + rest;
    forall k | 0 <= k < |full| ensures full[k] != '\t' {
      if k < |word| { assert full[k] == word[k]; }
      else if k > |word| { assert full[k] == rest[k - |word| - 1]; }
    }
  }

  /** A vendor-file line written as prefix, short name and a full name of two or
      more words (`00:00:0C\tCisco\tCisco Systems, Inc`) parses back to the prefix
      and the full name's first word. */
  lemma ParseOuiLineRoundTrip(prefix: string, short: string, word: string, rest: string)
    requires '\t' !in prefix && '\t' !in short && '\t' !in word && '\t' !in rest
    requires ' ' !in word && |word| > 0 && |rest| > 0
    requires !IsJsWhitespace(word[0]) && !IsJsWhitespace(rest[|rest| - 1])
    requires |prefix| > 0 ==> !IsJsWhitespace(prefix[0]) && !IsJsWhitespace(prefix[|prefix| - 1])
    ensures ParseOuiLine(prefix + "\t" + short + "\t" + (word + " " + rest)) == OuiEntry(prefix, Some(word))
  {
    var full := word + " " + rest;
    NoTabInWords(word, rest);
    ThreeFields(prefix, short, full);
    ParseThreeFieldLine(prefix + "\t" + short + "\t" + full, prefix, short, full);
    TrimUnchanged(prefix);
    assert full[0] == word[0] && full[|full| - 1] == rest[|rest| - 1];
    TrimUnchanged(full);
    TwoWords(word, rest);
  }
}

=== FILE: services.dfy ===
/** backend.js, `serviceDiscovery`: parsing the advertisement browser's
    `;`-separated output and classifying every host by the services advertised
    at its address, with three ordered rule tables. */
module Services {
  import opened Options
  import opened Strings
  import opened Hosts

  /** One advertised service: fields 0..9 of its line by position (backend.js's
      `type`, `iface`, `protocol`, `name`, `record`, `domain`, `hostname`, `ip`,
      `port`, `attributes`); a field past the end of the line is `undefined`. */
  datatype Service = Service(
    kind: Option<string>, iface: Option<string>, protocol: Option<string>,
    name: Option<string>, record: Option<string>, domain: Option<string>,
    hostname: Option<string>, ip: Option<string>, port: Option<string>,
    attributes: Option<string>)

  /** The protocol marker a line must carry in its third field to be kept. */
  const IPv4Marker := "IPv4"

  /** One line: kept, with its fields by position, only when its third field is the
      IPv4 marker. A kept line has at least its first three fields, and no field
      holds the separator. */
  function ParseServiceLine(line: string): (r: Option<Service>)
    ensures r.Some? <==> |Split(line, ';')| >= 3 && Split(line, ';')[2] == IPv4Marker
    ensures r.Some? ==> r.value.kind.Some? && r.value.iface.Some? && r.value.protocol == Some(IPv4Marker)
    ensures r.Some? ==> forall k :: 0 <= k < |Fields(r.value)| && Fields(r.value)[k].Some? ==> ';' !in Fields(r.value)[k].value
    ensures r.Some? ==> forall k :: 0 <= k < |Fields(r.value)| ==>
              Fields(r.value)[k] == if k < |Split(line, ';')| then Some(Split(line, ';')[k]) else None
  {
    var parts := Split(line, ';');
    if At(parts, 2) != Some(IPv4Marker) then None
    else Some(Service(At(parts, 0), At(parts, 1), At(parts, 2), At(parts, 3), At(parts, 4),
                      At(parts, 5), At(parts, 6), At(parts, 7), At(parts, 8), At(parts, 9)))
  }

  /** The ten fields of a service, in line order. */
  function Fields(s: Service): seq<Option<string>> {
    [s.kind, s.iface, s.protocol, s.name, s.record, s.domain, s.hostname, s.ip, s.port, s.attributes]
  }

  /** The leading run of present fields. */
  function PresentPrefix(fs: seq<Option<string>>): seq<string> {
    if |fs| == 0 || fs[0].None? then [] else [fs[0].value] + PresentPrefix(fs[1..])
  }

  lemma {:induction false} PresentPrefixOfAt(parts: seq<string>, i: nat, fs: seq<Option<string>>)
    requires |parts| <= i + |fs|
    requires forall k :: 0 <= k < |fs| ==> fs[k] == At(parts, i + k)
    ensures PresentPrefix(fs) == if i <= |parts| then parts[i..] else []
    decreases |fs|
  {
    if |fs| > 0 && i < |parts| {
      PresentPrefixOfAt(parts, i + 1, fs[1..]);
      assert parts[i..] == [parts[i]] + parts[i + 1..];
    }
  }

  /** The fields of a kept line are the line's pieces, in place, and every field
      past the line's last piece is absent: joined back with `;` the present
      fields give the line, for lines of at most ten fields. */
  lemma ServiceLineRoundTrip(line: string)
    requires ParseServiceLine(line).Some?
    requires |Split(line, ';')| <= 10
    ensures PresentPrefix(Fields(ParseServiceLine(line).value)) == Split(line, ';')
    ensures forall k :: |Split(line, ';')| <= k < 10 ==> Fields(ParseServiceLine(line).value)[k].None?
    ensures Join(PresentPrefix(Fields(ParseServiceLine(line).value)), ';') == line
  {
    var parts := Split(line, ';');
    PresentPrefixOfAt(parts, 0, Fields(ParseServiceLine(line).value));
    JoinSplit(line, ';');
  }

  /** The services of the kept lines, in line order (`map` then `filter(Boolean)`). */
  function ParseServiceLines(lines: seq<string>): (services: seq<Service>)
    ensures |services| <= |lines|
    ensures forall s :: s in services ==> s.protocol == Some(IPv4Marker)
  {
    if |lines| == 0 then []
    else
      var rest := ParseServiceLines(lines[1..]);
      match ParseServiceLine(lines[0])
      case None => rest
      case Some(s) => [s] + rest
  }

  /** The parsing half of `serviceDiscovery`: the browser's output, line by line. */
  function ParseServices(output: string): (services: seq<Service>)
    ensures |services| <= |Split(output, '\n')|
    ensures forall s :: s in services ==> s.protocol == Some(IPv4Marker)
  {
    ParseServiceLines(Split(output, '\n'))
  }

  lemma {:induction false} ParseServiceLinesAppend(xs: seq<string>, ys: seq<string>)
    ensures ParseServiceLines(xs + ys) == ParseServiceLines(xs) + ParseServiceLines(ys)
  {
    if |xs| == 0 {
      assert xs + ys == ys;
    } else {
      assert (xs + ys)[0] == xs[0];
      assert (xs + ys)[1..] == xs[1..] + ys;
      ParseServiceLinesAppend(xs[1..], ys);
    }
  }

  /** Parsing distributes over lines. */
  lemma ParseServicesConcat(a: string, b: string)
    ensures ParseServices(a + "\n" + b) == ParseServices(a) + ParseServices(b)
  {
    SplitConcat(a, b, '\n');
    ParseServiceLinesAppend(Split(a, '\n'), Split(b, '\n'));
  }

  /** A single line yields one service when its third field is the IPv4 marker and none otherwise. */
  lemma ParseServicesOneLine(line: string)
    requires '\n' !in line
    ensures At(Split(line, ';'), 2) == Some(IPv4Marker) ==> ParseServices(line) == [ParseServiceLine(line).value]
    ensures At(Split(line, ';'), 2) != Some(IPv4Marker) ==> ParseServices(line) == []
  {
    SplitNoSeparator(line, '\n');
  }

  /** One character of a regular expression: a literal, or `.` (any one UTF-16 code unit but a line terminator). */
  datatype PatternChar = Char(c: char) | AnyChar

  /** A regular expression made of literal characters and `.` only. */
  type Pattern = seq<PatternChar>

  predicate IsLineTerminator(c: char) {
    c == '\n' || c == '\r' || c == '\U{2028}' || c == '\U{2029}'
  }

  /** A character outside the Basic Multilingual Plane is two UTF-16 code units in a
      JavaScript string, and a `.` without the `u` flag consumes only one of them; here
      it therefore matches only characters that are one code unit long. */
  predicate IsSingleUnit(c: char) {
    c <= '\U{FFFF}'
  }

  predicate CharMatches(p: PatternChar, c: char) {
    match p
    case Char(x) => c == x
    case AnyChar => !IsLineTerminator(c) && IsSingleUnit(c)
  }

  /** The pattern matches `s` starting at position `i`. */
  predicate MatchesAt(p: Pattern, s: string, i: int) {
    0 <= i && i + |p| <= |s| && forall k :: 0 <= k < |p| ==> CharMatches(p[k], s[i + k])
  }

  function SearchFrom(p: Pattern, s: string, i: nat): (found: bool)
    ensures found <==> exists j :: i <= j && MatchesAt(p, s, j)
    decreases |s| - i
  {
    if i + |p| > |s| then false
    else MatchesAt(p, s, i) || SearchFrom(p, s, i + 1)
  }

  /** `regex.test(s)` for an unanchored pattern: it matches somewhere in `s`. */
  function Test(p: Pattern, s: string): (found: bool)
    ensures found <==> exists j :: MatchesAt(p, s, j)
  {
    SearchFrom(p, s, 0)
  }

  /** A pattern of literal characters only. */
  function Literal(s: string): (p: Pattern)
    ensures |p| == |s| && forall k :: 0 <= k < |s| ==> p[k] == Char(s[k])
  {
    seq(|s|, k requires 0 <= k < |s| => Char(s[k]))
  }

  /** A classification rule: a pattern and the device type it names. */
  datatype Rule = Rule(pattern: Pattern, name: string)

  /** The three rule tables, each tried in declared order against its own field. */
  datatype RuleSet = RuleSet(records: seq<Rule>, attributes: seq<Rule>, hostnames: seq<Rule>)

  /** The tables of backend.js. */
  const SourceRules := RuleSet(
    [ Rule(Literal("_amzn-alexa") + [AnyChar] + Literal("_tcp"), "Alexa"),
      Rule(Literal("Amazon Fire TV"), "Fire TV") ],
    [ Rule(Literal("\"md=Google Nest Hub\""), "Nest Hub"),
      Rule(Literal("\"md=BSB002\""), "Hue Hub"),
      Rule(Literal("=AppleTV"), "TV") ],
    [ Rule(Literal("-MacBook-"), "MacBook") ])

  const Unknown := "Unknown"

  /** `regex.test(field)` converts an absent field to the string "undefined". */
  function Subject(field: Option<string>): string {
    field.GetOr("undefined")
  }

  /** The test of `rules.find`: the rule's pattern matches `subject`. */
  function MatchesSubject(subject: string): Rule -> bool {
    (r: Rule) => Test(r.pattern, subject)
  }

  /** `rules.find((r) => r.regex.test(subject))`, as an index; `|rules|` when none matches. */
  function FirstRule(rules: seq<Rule>, subject: string): (k: nat)
    ensures k <= |rules|
    ensures k < |rules| ==> Test(rules[k].pattern, subject)
    ensures forall j :: 0 <= j < k ==> !Test(rules[j].pattern, subject)
  {
    FindIndex(rules, MatchesSubject(subject))
  }

  /** `rules.find(...)?.name`. */
  function FindName(rules: seq<Rule>, subject: string): Option<string> {
    var k := FirstRule(rules, subject);
    if k < |rules| then Some(rules[k].name) else None
  }

  /** JavaScript's `a || b` where `a` is a name or `undefined`: the empty name is falsy too. */
  function OrElse(a: Option<string>, b: string): string {
    if a.Some? && a.value != "" then a.value else b
  }

  function Names(rules: seq<Rule>): set<string> {
    set r | r in rules :: r.name
  }

  function AllNames(rules: RuleSet): set<string> {
    Names(rules.records) + Names(rules.attributes) + Names(rules.hostnames)
  }

  /** The classification of one service (backend.js:117-121): the record rules,
      then the attribute rules, then the host-name rules, and "Unknown" when none
      matches. The result is always a rule's name or "Unknown". */
  function ClassifyService(rules: RuleSet, s: Service): (t: string)
    ensures t in AllNames(rules) || t == Unknown
  {
    OrElse(FindName(rules.records, Subject(s.record)),
      OrElse(FindName(rules.attributes, Subject(s.attributes)),
        OrElse(FindName(rules.hostnames, Subject(s.hostname)), Unknown)))
  }

  /** The field of a service a rule is matched against. */
  datatype Field = RecordField | AttributesField | HostnameField

  function FieldOf(s: Service, f: Field): Option<string> {
    match f
    case RecordField => s.record
    case AttributesField => s.attributes
    case HostnameField => s.hostname
  }

  /** All rules in one list, each tagged with the field it reads. */
  function Tag(f: Field, rules: seq<Rule>): seq<(Field, Rule)> {
    seq(|rules|, k requires 0 <= k < |rules| => (f, rules[k]))
  }

  function Tagged(rules: RuleSet): seq<(Field, Rule)> {
    Tag(RecordField, rules.records) + Tag(AttributesField, rules.attributes) + Tag(HostnameField, rules.hostnames)
  }

  /** Reference classification: the name of the first rule in the single tagged
      list that matches its own field, or "Unknown". */
  function FirstTaggedMatch(tagged: seq<(Field, Rule)>, s: Service): string {
    if |tagged| == 0 then Unknown
    else if Test(tagged[0].1.pattern, Subject(FieldOf(s, tagged[0].0))) then tagged[0].1.name
    else FirstTaggedMatch(tagged[1..], s)
  }

  predicate WellNamed(rules: RuleSet) {
    forall n :: n in AllNames(rules) ==> n != ""
  }

  /** Some rule of the tagged list matches its own field. */
  predicate AnyTaggedMatch(tagged: seq<(Field, Rule)>, s: Service) {
    |tagged| > 0 && (Test(tagged[0].1.pattern, Subject(FieldOf(s, tagged[0].0))) || AnyTaggedMatch(tagged[1..], s))
  }

  lemma {:induction false} FirstTaggedMatchAppend(xs: seq<(Field, Rule)>, ys: seq<(Field, Rule)>, s: Service)
    ensures FirstTaggedMatch(xs + ys, s) == if AnyTaggedMatch(xs, s) then FirstTaggedMatch(xs, s) else FirstTaggedMatch(ys, s)
  {
    if |xs| == 0 {
      assert xs + ys == ys;
    } else {
      assert (xs + ys)[0] == xs[0];
      assert (xs + ys)[1..] == xs[1..] + ys;
      FirstTaggedMatchAppend(xs[1..], ys, s);
    }
  }

  /** One rule table, tagged, matches exactly when the table has a matching rule,
      and its first match is the table's first match. */
  lemma {:induction false} FirstTaggedMatchTag(f: Field, rules: seq<Rule>, s: Service)
    ensures var k := FirstRule(rules, Subject(FieldOf(s, f)));
            && (k < |rules| <==> AnyTaggedMatch(Tag(f, rules), s))
            && (k < |rules| ==> FirstTaggedMatch(Tag(f, rules), s) == rules[k].name)
  {
    if |rules| > 0 {
      assert Tag(f, rules)[1..] == Tag(f, rules[1..]);
      FirstTaggedMatchTag(f, rules[1..], s);
    }
  }

  /** The precedence of the three tables: classifying a service is taking the
      first match in the single list of record rules, then attribute rules, then
      host-name rules, each matched against its own field. */
  lemma ClassifyIsFirstMatch(rules: RuleSet, s: Service)
    requires WellNamed(rules)
    ensures ClassifyService(rules, s) == FirstTaggedMatch(Tagged(rules), s)
  {
    var a := Tag(RecordField, rules.records);
    var b := Tag(AttributesField, rules.attributes);
    var c := Tag(HostnameField, rules.hostnames);
    assert Tagged(rules) == a + (b + c);
    FirstTaggedMatchAppend(a, b + c, s);
    FirstTaggedMatchAppend(b, c, s);
    FirstTaggedMatchAppend(c, [], s);
    assert c + [] == c;
    FirstTaggedMatchTag(RecordField, rules.records, s);
    FirstTaggedMatchTag(AttributesField, rules.attributes, s);
    FirstTaggedMatchTag(HostnameField, rules.hostnames, s);
    var kr := FirstRule(rules.records, Subject(s.record));
    var ka := FirstRule(rules.attributes, Subject(s.attributes));
    var kh := FirstRule(rules.hostnames, Subject(s.hostname));
    var fr := FindName(rules.records, Subject(s.record));
    var fa := FindName(rules.attributes, Subject(s.attributes));
    var fh := FindName(rules.hostnames, Subject(s.hostname));
    assert ClassifyService(rules, s) == OrElse(fr, OrElse(fa, OrElse(fh, Unknown)));
    if kr < |rules.records| {
      assert rules.records[kr] in rules.records;
      assert rules.records[kr].name in Names(rules.records);
      assert fr == Some(rules.records[kr].name) && fr.value != "";
    } else if ka < |rules.attributes| {
      assert rules.attributes[ka] in rules.attributes;
      assert rules.attributes[ka].name in Names(rules.attributes);
      assert fa == Some(rules.attributes[ka].name) && fa.value != "";
    } else if kh < |rules.hostnames| {
      assert rules.hostnames[kh] in rules.hostnames;
      assert rules.hostnames[kh].name in Names(rules.hostnames);
      assert rules.hostnames[kh].name in AllNames(rules);
      assert fh == Some(rules.hostnames[kh].name) && fh.value != "";
    } else {
      assert FirstTaggedMatch([], s) == Unknown;
    }
  }

  /** `services.filter((s) => s.ip === host.ip)`; an absent address equals an absent address. */
  function ServicesAt(ip: Option<string>, services: seq<Service>): (r: seq<Service>)
    ensures forall s :: s in r ==> s in services && s.ip == ip
    ensures forall s :: s in services && s.ip == ip ==> s in r
  {
    if |services| == 0 then []
    else (if services[0].ip == ip then [services[0]] else []) + ServicesAt(ip, services[1..])
  }

  /** The `forEach` of backend.js:116-122: every service overwrites the running type
      with its own classification, whether or not any rule matched. */
  function AssignEach(rules: RuleSet, current: string, services: seq<Service>): (t: string)
    ensures t == current || t in AllNames(rules) || t == Unknown
    decreases |services|
  {
    if |services| == 0 then current
    else AssignEach(rules, ClassifyService(rules, services[0]), services[1..])
  }

  /** The device type of a host at address `ip`: a rule name, or "Unknown" when no
      service is advertised there. */
  function DeviceType(rules: RuleSet, ip: Option<string>, services: seq<Service>): (t: string)
    ensures t in AllNames(rules) || t == Unknown
    ensures (forall s :: s in services ==> s.ip != ip) ==> t == Unknown
  {
    AssignEach(rules, Unknown, ServicesAt(ip, services))
  }

  /** Only the last service decides the running type. */
  lemma {:induction false} AssignEachIsLast(rules: RuleSet, current: string, services: seq<Service>)
    ensures AssignEach(rules, current, services) ==
              if |services| == 0 then current else ClassifyService(rules, services[|services| - 1])
    decreases |services|
  {
    if |services| > 1 {
      AssignEachIsLast(rules, ClassifyService(rules, services[0]), services[1..]);
    }
  }

  lemma {:induction false} ServicesAtAppend(ip: Option<string>, xs: seq<Service>, ys: seq<Service>)
    ensures ServicesAt(ip, xs + ys) == ServicesAt(ip, xs) + ServicesAt(ip, ys)
  {
    if |xs| == 0 {
      assert xs + ys == ys;
    } else {
      assert (xs + ys)[0] == xs[0];
      assert (xs + ys)[1..] == xs[1..] + ys;
      ServicesAtAppend(ip, xs[1..], ys);
    }
  }

  /** Index of the last service at `ip`, or -1 when there is none. */
  function LastAt(ip: Option<string>, services: seq<Service>): (k: int)
    ensures -1 <= k < |services|
    ensures k >= 0 ==> services[k].ip == ip
    ensures forall j :: k < j < |services| ==> services[j].ip != ip
  {
    if |services| == 0 then -1
    else if services[|services| - 1].ip == ip then |services| - 1
    else LastAt(ip, services[..|services| - 1])
  }

  /** A host's type is the classification of the last service advertised at its
      address, and "Unknown" when none is. A later service that matches no rule
      therefore resets the type to "Unknown". */
  lemma {:induction false} DeviceTypeIsLastService(rules: RuleSet, ip: Option<string>, services: seq<Service>)
    ensures var k := LastAt(ip, services);
            DeviceType(rules, ip, services) == if k < 0 then Unknown else ClassifyService(rules, services[k])
  {
    AssignEachIsLast(rules, Unknown, ServicesAt(ip, services));
    LastServiceAt(ip, services);
  }

  lemma {:induction false} LastServiceAt(ip: Option<string>, services: seq<Service>)
    ensures var m := ServicesAt(ip, services);
            var k := LastAt(ip, services);
            && (|m| == 0 <==> k < 0)
            && (k >= 0 ==> m[|m| - 1] == services[k])
  {
    if |services| > 0 {
      var init := services[..|services| - 1];
      var last := services[|services| - 1];
      assert services == init + [last];
      ServicesAtAppend(ip, init, [last]);
      assert ServicesAt(ip, [last]) == if last.ip == ip then [last] else [];
      LastServiceAt(ip, init);
    }
  }

  /** A host with the device type the services gave it. */
  datatype TypedHost = TypedHost(host: Host, deviceType: string)

  /** The `hosts.map` of `serviceDiscovery`: same hosts, same order, each given a type. */
  function ClassifyHosts(rules: RuleSet, hosts: seq<Host>, services: seq<Service>): (r: seq<TypedHost>)
    ensures |r| == |hosts|
    ensures forall i :: 0 <= i < |hosts| ==> r[i].host == hosts[i]
    ensures forall i :: 0 <= i < |hosts| ==> r[i].deviceType in AllNames(rules) || r[i].deviceType == Unknown
  {
    seq(|hosts|, i requires 0 <= i < |hosts| => TypedHost(hosts[i], DeviceType(rules, hosts[i].ip, services)))
  }

  /** Every row's type is the classification of the last service advertised at its
      address, or "Unknown" when there is none. */
  predicate TypedByLastService(rules: RuleSet, typed: seq<TypedHost>, services: seq<Service>) {
    forall i :: 0 <= i < |typed| ==>
      var k := LastAt(typed[i].host.ip, services);
      typed[i].deviceType == if k < 0 then Unknown else ClassifyService(rules, services[k])
  }

  /** The classification of every row is decided by the last service at its address. */
  lemma ClassifyHostsByLastService(rules: RuleSet, hosts: seq<Host>, services: seq<Service>)
    ensures TypedByLastService(rules, ClassifyHosts(rules, hosts, services), services)
  {
    var typed := ClassifyHosts(rules, hosts, services);
    forall i | 0 <= i < |typed|
      ensures var k := LastAt(typed[i].host.ip, services);
              typed[i].deviceType == if k < 0 then Unknown else ClassifyService(rules, services[k])
    {
      DeviceTypeIsLastService(rules, hosts[i].ip, services);
    }
  }

  /** `serviceDiscovery()` over the current table and the browser's output: the same
      hosts in the same order, each typed by the last service its address advertises. */
  function ServiceDiscovery(rules: RuleSet, hosts: seq<Host>, output: string): (r: seq<TypedHost>)
    ensures |r| == |hosts| && forall i :: 0 <= i < |hosts| ==> r[i].host == hosts[i]
    ensures TypedByLastService(rules, r, ParseServices(output))
  {
    ClassifyHostsByLastService(rules, hosts, ParseServices(output));
    ClassifyHosts(rules, hosts, ParseServices(output))
  }

  /** Every rule of backend.js names a non-empty type. */
  lemma SourceRulesWellNamed()
    ensures WellNamed(SourceRules)
    ensures AllNames(SourceRules) == {"Alexa", "Fire TV", "Nest Hub", "Hue Hub", "TV", "MacBook"}
  {
    assert Names(SourceRules.records) == {"Alexa", "Fire TV"} by {
      assert SourceRules.records[0] in SourceRules.records;
      assert SourceRules.records[1] in SourceRules.records;
    }
    assert Names(SourceRules.attributes) == {"Nest Hub", "Hue Hub", "TV"} by {
      assert SourceRules.attributes[0] in SourceRules.attributes;
      assert SourceRules.attributes[1] in SourceRules.attributes;
      assert SourceRules.attributes[2] in SourceRules.attributes;
    }
    assert Names(SourceRules.hostnames) == {"MacBook"} by {
      assert SourceRules.hostnames[0] in SourceRules.hostnames;
    }
  }

  /** A pattern longer than the subject cannot match it. */
  lemma TooShortNeverMatches(p: Pattern, subject: string)
    requires |subject| < |p|
    ensures !Test(p, subject)
  {
  }

  /** No pattern of backend.js matches "undefined", the text an absent field is matched as. */
  lemma NoSourcePatternMatchesUndefined()
    ensures FirstRule(SourceRules.records, "undefined") == |SourceRules.records|
    ensures FirstRule(SourceRules.attributes, "undefined") == |SourceRules.attributes|
    ensures FirstRule(SourceRules.hostnames, "undefined") == |SourceRules.hostnames|
  {
    var u := "undefined";
    TooShortNeverMatches(SourceRules.records[0].pattern, u);
    TooShortNeverMatches(SourceRules.records[1].pattern, u);
    TooShortNeverMatches(SourceRules.attributes[0].pattern, u);
    TooShortNeverMatches(SourceRules.attributes[1].pattern, u);
    var tv := SourceRules.attributes[2].pattern;
    assert tv[0] == Char('=');
    forall j ensures !MatchesAt(tv, u, j) {
      if 0 <= j && j + |tv| <= |u| {
        assert !CharMatches(tv[0], u[j]);
      }
    }
    var mac := SourceRules.hostnames[0].pattern;
    assert mac[0] == Char('-');
    forall j ensures !MatchesAt(mac, u, j) {
      if 0 <= j && j + |mac| <= |u| {
        assert !CharMatches(mac[0], u[j]);
      }
    }
  }

  /** With the rules of backend.js, a service that lacks the record, attribute and
      host-name fields is classified "Unknown". */
  lemma AbsentFieldsAreUnknown(s: Service)
    requires s.record.None? && s.attributes.None? && s.hostname.None?
    ensures ClassifyService(SourceRules, s) == Unknown
  {
    NoSourcePatternMatchesUndefined();
  }

  /** The `.` of `/_amzn-alexa._tcp/` matches any one-unit character, so both the dotted
      service type and a variant with another such character there are "Alexa". */
  lemma AlexaPatternWildcard(c: char)
    requires !IsLineTerminator(c) && IsSingleUnit(c)
    ensures Test(SourceRules.records[0].pattern, "_amzn-alexa._tcp")
    ensures Test(SourceRules.records[0].pattern, "_amzn-alexa" + [c] + "_tcp")
  {
    var p := SourceRules.records[0].pattern;
    assert MatchesAt(p, "_amzn-alexa._tcp", 0);
    assert MatchesAt(p, "_amzn-alexa" + [c] + "_tcp", 0);
  }

  /** A character that is two UTF-16 code units (an emoji, say) does not fill the `.`
      of `/_amzn-alexa._tcp/`, and neither does a line terminator. */
  lemma AlexaRejectsWideOrTerminator(c: char)
    requires IsLineTerminator(c) || !IsSingleUnit(c)
    ensures !Test(SourceRules.records[0].pattern, "_amzn-alexa" + [c] + "_tcp")
  {
    var p := SourceRules.records[0].pattern;
    var s := "_amzn-alexa" + [c] + "_tcp";
    assert |p| == |s| == 16;
    assert p[11] == AnyChar && s[11] == c;
    assert !MatchesAt(p, s, 0);
  }

  /** An example service advertised by a MacBook: only its host name matches a rule. */
  function MacBookService(ip: string): Service {
    Service(Some("="), Some("eth0"), Some(IPv4Marker), None, Some("_smb._tcp"), Some("local"),
            Some("Dans-MacBook-Pro.local"), Some(ip), Some("445"), None)
  }

  /** An example service that matches no rule. */
  function PlainService(ip: string): Service {
    Service(Some("="), Some("eth0"), Some(IPv4Marker), None, Some("_ssh._tcp"), Some("local"),
            None, Some(ip), Some("22"), None)
  }

  /** The host-name rule finds `-MacBook-` inside the example host name. */
  lemma MacBookHostnameMatches()
    ensures FindName(SourceRules.hostnames, "Dans-MacBook-Pro.local") == Some("MacBook")
  {
    var rules := SourceRules.hostnames;
    assert MatchesAt(rules[0].pattern, "Dans-MacBook-Pro.local", 4);
    assert Test(rules[0].pattern, "Dans-MacBook-Pro.local");
    assert FirstRule(rules, "Dans-MacBook-Pro.local") == 0;
  }

  /** Both record rules are longer than a short record type, so neither matches it. */
  lemma ShortRecordMatchesNothing(record: string)
    requires |record| < 14
    ensures FindName(SourceRules.records, record) == None
  {
    TooShortNeverMatches(SourceRules.records[0].pattern, record);
    TooShortNeverMatches(SourceRules.records[1].pattern, record);
    assert FirstRule(SourceRules.records, record) == |SourceRules.records|;
  }

  /** With the rules of backend.js, a service whose record and attributes match no
      rule and whose host name contains `-MacBook-` is a "MacBook". */
  lemma MacBookServiceIsMacBook(s: Service)
    requires FindName(SourceRules.records, Subject(s.record)) == None
    requires FindName(SourceRules.attributes, Subject(s.attributes)) == None
    requires Test(SourceRules.hostnames[0].pattern, Subject(s.hostname))
    ensures ClassifyService(SourceRules, s) == "MacBook"
  {
    assert FirstRule(SourceRules.hostnames, Subject(s.hostname)) == 0;
  }

  /** A service that matches no rule in any of the three tables is "Unknown". */
  lemma NoMatchIsUnknown(rules: RuleSet, s: Service)
    requires FindName(rules.records, Subject(s.record)) == None
    requires FindName(rules.attributes, Subject(s.attributes)) == None
    requires FindName(rules.hostnames, Subject(s.hostname)) == None
    ensures ClassifyService(rules, s) == Unknown
  {
  }

  /** The overwrite of backend.js:117-121: a host with one service gets that
      service's type, and once any later service at its address matches nothing,
      the host is "Unknown", whatever the earlier service matched. */
  lemma LaterNonMatchResets(rules: RuleSet, ip: Option<string>, s1: Service, s2: Service)
    requires s1.ip == ip && s2.ip == ip
    requires ClassifyService(rules, s2) == Unknown
    ensures DeviceType(rules, ip, [s1]) == ClassifyService(rules, s1)
    ensures DeviceType(rules, ip, [s1, s2]) == Unknown
  {
    DeviceTypeIsLastService(rules, ip, [s1]);
    DeviceTypeIsLastService(rules, ip, [s1, s2]);
  }

  /** The overwrite on an example: a host whose MacBook service comes last is a
      "MacBook", but after a later plain service it is "Unknown". */
  lemma MacBookThenPlainExample(ip: string)
    ensures DeviceType(SourceRules, Some(ip), [MacBookService(ip)]) == "MacBook"
    ensures DeviceType(SourceRules, Some(ip), [MacBookService(ip), PlainService(ip)]) == Unknown
  {
    NoSourcePatternMatchesUndefined();
    ShortRecordMatchesNothing("_smb._tcp");
    ShortRecordMatchesNothing("_ssh._tcp");
    MacBookHostnameMatches();
    MacBookServiceIsMacBook(MacBookService(ip));
    NoMatchIsUnknown(SourceRules, PlainService(ip));
    LaterNonMatchResets(SourceRules, Some(ip), MacBookService(ip), PlainService(ip));
  }
}

=== FILE: strings.dfy ===
/** The JavaScript string operations the discovery script relies on: `split`
    with a one-character separator, `trim`, `toUpperCase`, `startsWith` and the
    relational comparison of two strings. */
module Strings {

  /** Pieces joined with `sep` between consecutive pieces (`Array.prototype.join`). */
  function Join(parts: seq<string>, sep: char): string
    requires |parts| >= 1
  {
    if |parts| == 1 then parts[0] else parts[0] + [sep] + Join(parts[1..], sep)
  }

  /** The pieces of `[c] + t` from the pieces `rest` of `t`: a leading separator
      adds an empty piece, any other character extends the first piece. */
  function ConsPieces(c: char, sep: char, rest: seq<string>): seq<string>
    requires |rest| >= 1
  {
    if c == sep then [""] + rest else [[c] + rest[0]] + rest[1..]
  }

  /** `s.split(sep)`: the maximal separator-free pieces of `s`, in order. There is
      always at least one piece; the empty string splits into `[""]`. */
  function Split(s: string, sep: char): (parts: seq<string>)
    ensures |parts| >= 1
    ensures forall i :: 0 <= i < |parts| ==> sep !in parts[i]
  {
    if |s| == 0 then [""] else ConsPieces(s[0], sep, Split(s[1..], sep))
  }

  /** `join` undoes `split`: the pieces with the separator put back are the string. */
  lemma {:induction false} JoinSplit(s: string, sep: char)
    ensures Join(Split(s, sep), sep) == s
  {
    if |s| > 0 {
      JoinSplit(s[1..], sep);
      var rest := Split(s[1..], sep);
      if s[0] == sep {
        assert ([""] + rest)[1..] == rest;
      } else {
        var parts := [[s[0]] + rest[0]] + rest[1..];
        assert parts[1..] == rest[1..];
        assert |rest| > 1 ==> Join(rest, sep) == rest[0] + [sep] + Join(rest[1..], sep);
      }
      assert s == [s[0]] + s[1..];
    }
  }

  lemma SplitCons(c: char, t: string, sep: char)
    ensures Split([c] + t, sep) == ConsPieces(c, sep, Split(t, sep))
  {
    assert ([c] + t)[0] == c;
    assert ([c] + t)[1..] == t;
  }

  lemma ConsPiecesAppend(c: char, sep: char, ra: seq<string>, sb: seq<string>)
    requires |ra| >= 1
    ensures ConsPieces(c, sep, ra + sb) == ConsPieces(c, sep, ra) + sb
  {
    if c != sep {
      assert (ra + sb)[0] == ra[0];
      assert (ra + sb)[1..] == ra[1..] + sb;
    }
  }

  /** Splitting distributes over a separator: the pieces of `a + sep + b` are the
      pieces of `a` followed by the pieces of `b`. */
  lemma {:induction false} SplitConcat(a: string, b: string, sep: char)
    ensures Split(a + [sep] + b, sep) == Split(a, sep) + Split(b, sep)
  {
    if |a| == 0 {
      assert a + [sep] + b == [sep] + b;
      SplitCons(sep, b, sep);
    } else {
      var c, t := a[0], a[1..];
      assert a == [c] + t;
      assert a + [sep] + b == [c] + (t + [sep] + b);
      SplitConcat(t, b, sep);
      SplitCons(c, t + [sep] + b, sep);
      SplitCons(c, t, sep);
      ConsPiecesAppend(c, sep, Split(t, sep), Split(b, sep));
    }
  }

  /** A string without the separator is a single piece. */
  lemma {:induction false} SplitNoSeparator(s: string, sep: char)
    requires sep !in s
    ensures Split(s, sep) == [s]
  {
    if |s| > 0 {
      assert sep !in s[1..] by {
        forall k | 0 <= k < |s[1..]| ensures s[1..][k] != sep {
          assert s[1..][k] == s[k + 1];
        }
      }
      SplitNoSeparator(s[1..], sep);
      assert s == [s[0]] + s[1..];
    }
  }

  /** `split` undoes `join` when no piece contains the separator. */
  lemma {:induction false} SplitJoin(parts: seq<string>, sep: char)
    requires |parts| >= 1
    requires forall i :: 0 <= i < |parts| ==> sep !in parts[i]
    ensures Split(Join(parts, sep), sep) == parts
  {
    if |parts| == 1 {
      SplitNoSeparator(parts[0], sep);
    } else {
      SplitJoin(parts[1..], sep);
      SplitNoSeparator(parts[0], sep);
      SplitConcat(parts[0], Join(parts[1..], sep), sep);
      assert parts == [parts[0]] + parts[1..];
    }
  }

  /** The characters JavaScript's `trim` removes: WhiteSpace and LineTerminator
      of the ECMAScript grammar (section 12.2 and 12.3 of ECMA-262). */
  predicate IsJsWhitespace(c: char) {
    || c == ' ' || c == '\t' || c == '\n' || c == '\r'
    || c == '\U{000B}' || c == '\U{000C}' || c == '\U{00A0}' || c == '\U{1680}'
    || ('\U{2000}' <= c <= '\U{200A}')
    || c == '\U{2028}' || c == '\U{2029}' || c == '\U{202F}' || c == '\U{205F}'
    || c == '\U{3000}' || c == '\U{FEFF}'
  }

  /** The number of whitespace characters `s` starts with. */
  function LeadingSpace(s: string): (n: nat)
    ensures n <= |s|
    ensures forall k :: 0 <= k < n ==> IsJsWhitespace(s[k])
    ensures n < |s| ==> !IsJsWhitespace(s[n])
  {
    if |s| > 0 && IsJsWhitespace(s[0]) then
      var n := 1 + LeadingSpace(s[1..]);
      assert forall k :: 1 <= k < n ==> s[k] == s[1..][k - 1];
      n
    else 0
  }

  /** The number of whitespace characters `s` ends with. */
  function TrailingSpace(s: string): (n: nat)
    ensures n <= |s|
    ensures forall k :: |s| - n <= k < |s| ==> IsJsWhitespace(s[k])
    ensures n < |s| ==> !IsJsWhitespace(s[|s| - n - 1])
  {
    if |s| > 0 && IsJsWhitespace(s[|s| - 1]) then
      var n := 1 + TrailingSpace(s[..|s| - 1]);
      assert forall k :: |s| - n <= k < |s| - 1 ==> s[k] == s[..|s| - 1][k];
      n
    else 0
  }

  /** `s.trim()`: the middle of `s` left once whitespace is removed from both ends.
      Everything before it and everything after it is whitespace, and it neither
      starts nor ends with whitespace. */
  function Trim(s: string): (r: string)
    ensures var i := LeadingSpace(s);
            && i + |r| <= |s| && r == s[i..i + |r|]
            && (forall k :: i + |r| <= k < |s| ==> IsJsWhitespace(s[k]))
    ensures |r| > 0 ==> !IsJsWhitespace(r[0]) && !IsJsWhitespace(r[|r| - 1])
  {
    var i := LeadingSpace(s);
    var t := s[i..];
    var j := TrailingSpace(t);
    assert forall k :: i + |t| - j <= k < |s| ==> s[k] == t[k - i];
    s[i..|s| - j]
  }

  predicate AllWhitespace(s: string) {
    forall k :: 0 <= k < |s| ==> IsJsWhitespace(s[k])
  }

  /** The leading whitespace count is pinned down by where the first non-whitespace character is. */
  lemma LeadingSpaceIs(s: string, n: nat)
    requires n <= |s| && AllWhitespace(s[..n]) && (n < |s| ==> !IsJsWhitespace(s[n]))
    ensures LeadingSpace(s) == n
  {
  }

  /** The trailing whitespace count is pinned down by where the last non-whitespace character is. */
  lemma TrailingSpaceIs(s: string, n: nat)
    requires n <= |s| && AllWhitespace(s[|s| - n..]) && (n < |s| ==> !IsJsWhitespace(s[|s| - n - 1]))
    ensures TrailingSpace(s) == n
  {
  }

  /** Trimming a text padded with whitespace on both sides gives the text back,
      when the text itself neither starts nor ends with whitespace. */
  lemma TrimPadded(w1: string, m: string, w2: string)
    requires AllWhitespace(w1) && AllWhitespace(w2)
    requires |m| > 0 && !IsJsWhitespace(m[0]) && !IsJsWhitespace(m[|m| - 1])
    ensures Trim(w1 + m + w2) == m
  {
    var s := w1 + m + w2;
    assert s[..|w1|] == w1;
    assert s[|w1|] == m[0];
    LeadingSpaceIs(s, |w1|);
    var t := s[|w1|..];
    assert t == m + w2;
    assert t[|t| - |w2|..] == w2;
    assert t[|t| - |w2| - 1] == m[|m| - 1];
    TrailingSpaceIs(t, |w2|);
    assert s[|w1|..|s| - |w2|] == m;
  }

  /** Trimming only removes characters: what `s` lacks, its trim lacks too. */
  lemma TrimExcludes(s: string, c: char)
    requires c !in s
    ensures c !in Trim(s)
  {
    var r := Trim(s);
    var i := LeadingSpace(s);
    forall k | 0 <= k < |r| ensures r[k] != c {
      assert r[k] == s[i + k];
    }
  }

  /** A string with no whitespace at either end is its own trim. */
  lemma TrimUnchanged(s: string)
    requires |s| > 0 ==> !IsJsWhitespace(s[0]) && !IsJsWhitespace(s[|s| - 1])
    ensures Trim(s) == s
  {
  }

  /** `toUpperCase` on one character, for the ASCII letters. */
  function UpperChar(c: char): char {
    if 'a' <= c <= 'z' then (c as int - 'a' as int + 'A' as int) as char else c
  }

  /** `s.toUpperCase()`, ASCII letters only. */
  function ToUpper(s: string): (r: string)
    ensures |r| == |s|
    ensures forall i :: 0 <= i < |s| ==> r[i] == UpperChar(s[i])
  {
    seq(|s|, i requires 0 <= i < |s| => UpperChar(s[i]))
  }

  /** Upper-casing is idempotent and leaves no lower-case ASCII letter behind. */
  lemma ToUpperIdempotent(s: string)
    ensures ToUpper(ToUpper(s)) == ToUpper(s)
    ensures forall i :: 0 <= i < |s| ==> !('a' <= ToUpper(s)[i] <= 'z')
  {
  }

  /** `s.startsWith(prefix)`. */
  predicate StartsWith(s: string, prefix: string) {
    |prefix| <= |s| && s[..|prefix|] == prefix
  }

  /** JavaScript's `a < b` on two strings: lexicographic by character, a proper
      prefix ordering before its extensions. */
  predicate StrLess(a: string, b: string) {
    if |a| == 0 then |b| > 0
    else if |b| == 0 then false
    else if a[0] != b[0] then a[0] < b[0]
    else StrLess(a[1..], b[1..])
  }

  lemma {:induction false} StrLessIrreflexive(a: string)
    ensures !StrLess(a, a)
  {
    if |a| > 0 {
      StrLessIrreflexive(a[1..]);
    }
  }

  lemma {:induction false} StrLessTransitive(a: string, b: string, c: string)
    requires StrLess(a, b) && StrLess(b, c)
    ensures StrLess(a, c)
  {
    if |a| > 0 && |b| > 0 && |c| > 0 && a[0] == b[0] && b[0] == c[0] {
      StrLessTransitive(a[1..], b[1..], c[1..]);
    }
  }

  /** Distinct strings are ordered one way or the other. */
  lemma {:induction false} StrLessTotal(a: string, b: string)
    requires a != b
    ensures StrLess(a, b) || StrLess(b, a)
  {
    if |a| > 0 && |b| > 0 && a[0] == b[0] {
      assert a == [a[0]] + a[1..] && b == [b[0]] + b[1..];
      StrLessTotal(a[1..], b[1..]);
    }
  }

  lemma {:induction false} StrLessAsymmetric(a: string, b: string)
    requires StrLess(a, b)
    ensures !StrLess(b, a)
  {
    if |a| > 0 && |b| > 0 && a[0] == b[0] {
      StrLessAsymmetric(a[1..], b[1..]);
    }
  }

  /** `s.split(" ")[0]`: the text before the first space. */
  function FirstWord(s: string): (w: string)
    ensures StartsWith(s, w)
    ensures ' ' !in w
    ensures |w| < |s| ==> s[|w|] == ' '
  {
    var parts := Split(s, ' ');
    JoinSplit(s, ' ');
    assert |parts| > 1 ==> Join(parts, ' ') == parts[0] + [' '] + Join(parts[1..], ' ');
    parts[0]
  }
}
